=== FILE: README.md ===
# virtio-cryptodev and Lunix:TNG character devices, in Dafny

This project models two pieces of an operating-systems lab repository.

**The virtio-cryptodev request relay.** A Linux guest exposes `/dev/cryptodev<N>`.
Its character driver (`crypto-chrdev.c`) turns `open`, `release` and the
cryptodev ioctls CIOCGSESSION, CIOCFSESSION and CIOCCRYPT into one virtqueue
element each. An element is an ordered list of buffers: first the ones the host
may only read (counted by `num_out`), then the ones it writes (counted by
`num_in`). On the QEMU side, `vq_handle_output` (`virtio-cryptodev.c`) pops the
element and reads it purely by position. It re-points the key, src, iv and dst
pointers of the `session_op` and `crypt_op` structs it finds at the element's
own buffers (the MAC pointers are left as they are), then
calls `open`, `close` or `ioctl` on the host's `/dev/crypto`. It writes the
results into the writable buffers, pushes the element back and notifies the
guest.

- `wire.dfy` (module `Wire`) holds the buffer layouts. The guest's `Encode*`
  functions build them; the host's `Decode` reads them back.
- `host.dfy` (module `CryptodevHost`) holds the handler. `Serve` specifies it on
  the decoded request; the imperative `Cryptodev.HandleOutput` is proved
  against `Serve`.
- `guest.dfy` (module `CryptoChrdev`) holds the driver. It builds each element
  in an `sgs` array through the `numOut`/`numIn` counters and submits it. The
  host's handler then serves it, and the driver copies the answers back to the
  user process.

The central facts:
- The host reads back exactly the descriptor, command and payload the guest
  wrote (`Wire.DecodeEncodeIoctl`).
- Every key, src, iv and dst pointer the host passes to `/dev/crypto` names an
  element buffer that exists, has the right direction and is long enough
  (`CryptodevHost.RelinkedPointersResolve`). The MAC pointers are not
  re-linked and reach the host as the user process's addresses
  (`CryptodevHost.MacPointersPassedThrough`).
- The guest finds the host's answers where it looks for them
  (`CryptodevHost.GuestReadsHostResults`).

The OPEN request is modelled as the driver builds it. Its readable buffer is the
8-byte pointer variable `syscall_type`, not the word it points to. The host
therefore sees OPEN only when the low 32 bits of that kernel address are zero.
In every other case it takes the request for an unknown syscall type, leaves
`host_fd` at -1, and the open fails with `-ENODEV`. `Wire.DecodeOpenAsWritten`,
`CryptodevHost.OpenAsWrittenResult` and `CryptoChrdev.Open` state this.
`Wire.EncodeOpen` is the layout the host's OPEN branch expects, the one CLOSE
and IOCTL follow.

**The Lunix:TNG sensor devices** (`lunix-chrdev.c`). `/dev/sensor<N>-<type>`
caches the latest measurement of one sensor as text. `lunix_format.dfy`
(module `LunixFormat`) gives the text `"%d.%d\n"` of the C quotient and the
absolute C remainder by 1000. It uses C's truncating `/` and `%` and stores the
quotient in a 32-bit `int`. `LunixFormat.FormatMilli`, ordinary fixed-point
notation with three fractional digits, serves as the reference the driver's
text is compared with:
- `LunixFormat.FormatReadingAgrees` says where the driver's text agrees with it.
- `LunixFormat.ShortFractionMisread` and `LunixFormat.SignDroppedAboveMinusOne`
  exhibit where it does not. The remainder is printed without zero padding, and
  values between -1 and 0 lose their sign.

`lunix_chrdev.dfy` (module `LunixChrdev`) holds the rest:
- minor-number decoding;
- the per-open state class, with its 20-byte buffer as an `array<char>`;
- the freshness test;
- the cache update;
- `read`, with its refresh-and-wait loop, its clamp and its auto-rewind;
- `open` and the `-EINVAL` stubs.

Shared pieces: `bytes.dfy` holds little-endian byte encodings of the 32- and
64-bit scalars the buffers carry, `errno.dfy` the Linux error numbers, and
`wrappers.dfy` `Option` and `Result`.

Parameters stand in for what the code cannot see or decide:
- the answers of the host's `/dev/crypto` (`HostEnv`);
- the memory of the calling process (`UserSpace`);
- whether an allocation fails (`oom`);
- the address `kzalloc` returned for the OPEN type word;
- the sensor's measurement slot at each refresh attempt (`Measurement`
  snapshots);
- the Lunix lookup tables (a function from type and raw value to thousandths).

The header constants are not part of this model. The syscall types are taken
as 0, 1 and 2, the cryptodev ioctl numbers as their 64-bit `_IOWR`/`_IOW`
encodings, `N_LUNIX_MSR` as 3 and `LUNIX_CHRDEV_BUFSZ` as 20.

## Model

| member | source | states |
|---|---|---|
| Wire.HeaderWords | Virtio_Crypto_Chat/virtio-cryptodev/qemu_driver/virtio-cryptodev.c:87-88 | the syscall type, host fd and command words of the common header read back as the values the guest stored |
| Wire.DecodeEncodeIoctl | Virtio_Crypto_Chat/virtio-cryptodev/guest/crypto-chrdev.c:248-351 | for every payload the guest can build for a command, the host decodes the same descriptor, command and payload from the element |
| Wire.DecodeEncodeClose | Virtio_Crypto_Chat/virtio-cryptodev/guest/crypto-chrdev.c:175-178 | the CLOSE element (type, host_fd; nothing writable) decodes as a close of that descriptor |
| Wire.EncodeOpen | Virtio_Crypto_Chat/virtio-cryptodev/qemu_driver/virtio-cryptodev.c:69-74 | with the type word itself in the readable buffer, the element decodes as OPEN; it has one readable and one writable buffer, and the writable one holds -1 |
| Wire.DecodeOpenAsWritten | Virtio_Crypto_Chat/virtio-cryptodev/guest/crypto-chrdev.c:108-111 | the OPEN element as built (8 pointer bytes, then host_fd = -1) decodes as OPEN exactly when the address's low 32 bits are 0, otherwise as an unknown syscall type; for an aligned address never as CLOSE or IOCTL |
| Wire.OpenAddressIsNotOpcode | Virtio_Crypto_Chat/virtio-cryptodev/guest/crypto-chrdev.c:108 | an aligned address (8) whose low word is not zero: the host does not see an OPEN |
| CryptodevHost.StoreI32 | Virtio_Crypto_Chat/virtio-cryptodev/qemu_driver/virtio-cryptodev.c:74 | `IN_SG(k, int) = v` overwrites the first four bytes with v and keeps the buffer's direction, length and remaining bytes |
| CryptodevHost.DecodeShape | Virtio_Crypto_Chat/virtio-cryptodev/qemu_driver/virtio-cryptodev.c:69-113 | for every decoded request out[0] is a readable word (the syscall type); for CLOSE out[1] is a readable word; for an ioctl out[1] and out[2] are readable words, and each command's payload positions (out[3..5], in[0..1]) exist, with a writable word wherever the handler stores an int |
| CryptodevHost.RelinkedPointersResolve | Virtio_Crypto_Chat/virtio-cryptodev/qemu_driver/virtio-cryptodev.c:94-113 | for each of the three commands the host makes exactly one ioctl, on the guest's descriptor and command, and every re-linked key/src/iv/dst pointer names an element buffer of the right direction holding at least keylen, len, BLOCK_SIZE or len bytes |
| CryptodevHost.MacPointersPassedThrough | Virtio_Crypto_Chat/virtio-cryptodev/qemu_driver/virtio-cryptodev.c:94-113 | the host ioctl gets session_op.mackey (with its mackeylen) and crypt_op.mac exactly as the caller's process wrote them: neither side copies or re-links them |
| CryptodevHost.HostTrustsKeyLength | Virtio_Crypto_Chat/virtio-cryptodev/qemu_driver/virtio-cryptodev.c:93-97 | the handler passes on a session_op whose keylen exceeds the key buffer: the key pointer then does not cover keylen bytes |
| CryptodevHost.ServeWritesOnlyResultSlots | Virtio_Crypto_Chat/virtio-cryptodev/qemu_driver/virtio-cryptodev.c:69-131 | serving keeps the buffer counts, changes no writable buffer outside the request's result slots (none for CLOSE, unknown commands and unknown types), and changes no readable buffer except the crypt_op re-linked for CIOCCRYPT |
| CryptodevHost.GuestReadsHostResults | Virtio_Crypto_Chat/virtio-cryptodev/qemu_driver/virtio-cryptodev.c:94-113 | after serving a guest-built ioctl: CIOCGSESSION leaves the session_op with the key re-linked and the new session id in in[0] and the ioctl result in in[1]; CIOCFSESSION leaves the result in in[0]; CIOCCRYPT leaves the transform output in in[0] and the result in in[1] |
| CryptodevHost.OpenRoundTrip | Virtio_Crypto_Chat/virtio-cryptodev/qemu_driver/virtio-cryptodev.c:69-74 | on an OPEN carrying the type word, the host opens /dev/crypto once and the descriptor lands in in[0] |
| CryptodevHost.OpenAsWrittenResult | Virtio_Crypto_Chat/virtio-cryptodev/guest/crypto-chrdev.c:108-111 | on the OPEN element as built, the host opens /dev/crypto and returns its descriptor only when the address's low word is 0; otherwise it calls nothing and in[0] still holds -1 |
| CryptodevHost.Cryptodev.Add | Virtio_Crypto_Chat/virtio-cryptodev/guest/crypto-chrdev.c:133 | virtqueue_add_sgs appends the element to the available ring and changes nothing else |
| CryptodevHost.Cryptodev.HandleOutput | Virtio_Crypto_Chat/virtio-cryptodev/qemu_driver/virtio-cryptodev.c:54-137 | an empty queue is left alone (no push, no notify); otherwise the head element is popped, served as `Serve` specifies, pushed to the used ring, and the guest notified once, whatever its syscall type or command |
| CryptoChrdev.CopyFromUser | Virtio_Crypto_Chat/virtio-cryptodev/guest/crypto-chrdev.c:276 | copy_from_user succeeds exactly when n is 0 or the address is a mapped user buffer with n bytes behind it; it then yields n bytes, a prefix of that buffer |
| CryptoChrdev.CopyToUser | Virtio_Crypto_Chat/virtio-cryptodev/guest/crypto-chrdev.c:398 | copy_to_user of nothing succeeds and changes nothing; otherwise it succeeds exactly for a writable mapped user buffer long enough for the bytes, after which the front of that buffer is the bytes and its tail, every other buffer, the structs and the writable set are unchanged |
| CryptoChrdev.CopySessionToUser | Virtio_Crypto_Chat/virtio-cryptodev/guest/crypto-chrdev.c:389 | copying a session_op back succeeds exactly for a writable session_op address; afterwards that struct is the given one, and every other session_op, the buffers, the crypt_ops and the writable set are unchanged |
| CryptoChrdev.IoctlArgsFrom | Virtio_Crypto_Chat/virtio-cryptodev/guest/crypto-chrdev.c:262-351 | gathering the payload fails exactly when one of the command's copy_from_user calls fails (session_op, then key; session id; crypt_op, then src, then iv); on success the payload fits the command's layout, carries the caller's own struct, and its key, session id, src and iv are exactly the bytes copied from the caller |
| CryptoChrdev.NewSessionReturnsId | Virtio_Crypto_Chat/virtio-cryptodev/guest/crypto-chrdev.c:386-390 | after CIOCGSESSION the caller's session_op carries the host's session id and the host-side key address; every other session_op, the buffers and the crypt_ops are unchanged |
| CryptoChrdev.EmptyKeySessionIsSubmitted | Virtio_Crypto_Chat/virtio-cryptodev/guest/crypto-chrdev.c:271-276 | a session_op with keylen 0 is gathered with an empty key whatever its key pointer, so the request is submitted |
| CryptoChrdev.TransformDeliversOutput | Virtio_Crypto_Chat/virtio-cryptodev/guest/crypto-chrdev.c:395-398 | after CIOCCRYPT exactly len bytes, the transform's output, sit at the front of the caller's dst buffer, and no other user memory changes; with len 0 user memory is untouched |
| CryptoChrdev.CryptoDevice.Submit | Virtio_Crypto_Chat/virtio-cryptodev/guest/crypto-chrdev.c:375-381 | add, kick and wait: the guest gets back the element as the host served it; the queue is empty again, the element is in the used ring, the host's calls are logged, and one notification was sent |
| CryptoChrdev.CryptoOpenFile.constructor | Virtio_Crypto_Chat/virtio-cryptodev/guest/crypto-chrdev.c:99-100 | a new open file belongs to its device and has host_fd = -1 |
| CryptoChrdev.GetCryptoDevByMinor | Virtio_Crypto_Chat/virtio-cryptodev/guest/crypto-chrdev.c:35-54 | null exactly when no device in the list has the minor; otherwise the first device in the list that has it |
| CryptoChrdev.BuildOpen | Virtio_Crypto_Chat/virtio-cryptodev/guest/crypto-chrdev.c:108-111 | one readable buffer and one writable buffer holding host_fd; with host_fd = -1 this is exactly the OPEN layout as built, 8 pointer bytes out |
| CryptoChrdev.Open | Virtio_Crypto_Chat/virtio-cryptodev/guest/crypto-chrdev.c:61-149 | -ENODEV and no state for an unknown minor, -ENOMEM on allocation failure; otherwise always a fresh open file on the first device with that minor, one OPEN element (one readable, one writable buffer) submitted to that device, host_fd what the host left in the writable buffer, the result -ENODEV when it is negative and 0 otherwise, and other devices untouched |
| CryptoChrdev.Release | Virtio_Crypto_Chat/virtio-cryptodev/guest/crypto-chrdev.c:151-195 | one CLOSE element with two readable buffers (type, host_fd) and none writable is submitted, the host closes host_fd, and release returns 0 |
| CryptoChrdev.NewIoctlSgs | Virtio_Crypto_Chat/virtio-cryptodev/guest/crypto-chrdev.c:248-255 | a fresh 11-slot array whose first three slots are the type IOCTL, host_fd and cmd, with num_out = 3 |
| CryptoChrdev.BuildNewSession | Virtio_Crypto_Chat/virtio-cryptodev/guest/crypto-chrdev.c:262-294 | the CIOCGSESSION element (header, keylen key bytes out; session_op, return value in), or none when a copy_from_user fails |
| CryptoChrdev.BuildEndSession | Virtio_Crypto_Chat/virtio-cryptodev/guest/crypto-chrdev.c:296-321 | the CIOCFSESSION element (header, session id out; return value in), or none when the copy fails |
| CryptoChrdev.BuildTransform | Virtio_Crypto_Chat/virtio-cryptodev/guest/crypto-chrdev.c:323-361 | the CIOCCRYPT element (header, crypt_op, len src bytes, BLOCK_SIZE iv bytes out; len dst bytes, return value in), or none when a copy fails |
| CryptoChrdev.BuildIoctl | Virtio_Crypto_Chat/virtio-cryptodev/guest/crypto-chrdev.c:261-367 | the element for any command (only the three common buffers for an unknown one), using at most 8 of the 11 slots |
| CryptoChrdev.Ioctl | Virtio_Crypto_Chat/virtio-cryptodev/guest/crypto-chrdev.c:197-419 | -EFAULT with nothing queued when a copy_from_user fails; otherwise exactly the command's element is served by the host, the host's return value is ignored, and the result is 0 with the answers copied back, or -EFAULT when that copy_to_user fails |
| LunixFormat.CDivRem | Lunix_Device_Driver/lunix-chrdev.c:94-95 | C division by 1000 truncates toward zero and the remainder has the dividend's sign and magnitude below 1000 |
| LunixFormat.Wrap32 | Lunix_Device_Driver/lunix-chrdev.c:94 | storing the long quotient in an int keeps values that fit and is congruent modulo 2^32 otherwise |
| LunixFormat.NatToDecimal | Lunix_Device_Driver/lunix-chrdev.c:96 | `%d` of a non-negative number prints digits only, without leading zeros |
| LunixFormat.NatToDecimalValue | Lunix_Device_Driver/lunix-chrdev.c:96 | the printed digits read back as the number printed |
| LunixFormat.NatToDecimalLength | Lunix_Device_Driver/lunix-chrdev.c:96 | a number below 10^k prints in at most k digits |
| LunixFormat.IntToDecimal | Lunix_Device_Driver/lunix-chrdev.c:96 | `%d` of an int starts with '-' exactly for a negative number, followed by digits only |
| LunixFormat.FormatReading | Lunix_Device_Driver/lunix-chrdev.c:93-97 | the driver's text is 4 to 16 characters, contains no NUL and ends in a newline, so it and its NUL fit the 20-byte buffer |
| LunixFormat.FormatReadingParts | Lunix_Device_Driver/lunix-chrdev.c:94-96 | when the quotient fits an int, the text is the signed quotient of the magnitude, a dot, and the magnitude's remainder, printed unpadded |
| LunixFormat.FormatReadingAgrees | Lunix_Device_Driver/lunix-chrdev.c:93-97 | for a remainder of three digits, a quotient that fits an int and no value in (-1000, 0), the text is the fixed-point notation and reads back as the looked-up value |
| LunixFormat.ShortFractionMisread | Lunix_Device_Driver/lunix-chrdev.c:96 | 1005 thousandths print as "1.5\n", which reads back as 1500 |
| LunixFormat.SignDroppedAboveMinusOne | Lunix_Device_Driver/lunix-chrdev.c:94-96 | -500 prints exactly as 500 does, and reads back as 500 |
| LunixChrdev.DecodeMinor | Lunix_Device_Driver/lunix-chrdev.c:122-131 | a minor is accepted exactly when minor & 7 is below N_LUNIX_MSR, as sensor minor >> 3 and that type, and rejected with -ENODEV otherwise |
| LunixChrdev.MinorRoundTrip | Lunix_Device_Driver/lunix-chrdev.c:122-124 | every sensor and type has the minor 8 * sensor + type, which decodes back to them |
| LunixChrdev.FirstFresh | Lunix_Device_Driver/lunix-chrdev.c:186-195 | the first snapshot newer than the cached timestamp, if any, with all earlier ones no newer |
| LunixChrdev.Strlen | Lunix_Device_Driver/lunix-chrdev.c:97 | strlen returns the position of the first NUL |
| LunixChrdev.ChrdevState.constructor | Lunix_Device_Driver/lunix-chrdev.c:140-145 | the new state has the given type and sensor, buf_lim = 0 and buf_timestamp = 0, and the buffer keeps what the allocation left there |
| LunixChrdev.ChrdevState.NeedsRefresh | Lunix_Device_Driver/lunix-chrdev.c:41-52 | 1 exactly when the sensor's last_update is newer than the cached timestamp, otherwise 0 |
| LunixChrdev.ChrdevState.Render | Lunix_Device_Driver/lunix-chrdev.c:96-97 | sprintf of a NUL-free text shorter than the buffer, then strlen: the state is valid and its cached text, of length buf_lim, is that text |
| LunixChrdev.ChrdevState.Update | Lunix_Device_Driver/lunix-chrdev.c:60-101 | -EAGAIN with the state untouched when nothing is newer; otherwise 0, buf_timestamp becomes last_update (so no refresh is needed any more), and the cached text, of length buf_lim, is the formatted looked-up value |
| LunixChrdev.ChrdevState.RefreshWait | Lunix_Device_Driver/lunix-chrdev.c:184-196 | the update is retried until the sensor has something newer; it succeeds exactly when some snapshot is newer and then caches the first such one, and leaves the state untouched otherwise |
| LunixChrdev.ChrdevState.Read | Lunix_Device_Driver/lunix-chrdev.c:163-223 | -ERESTARTSYS when interrupted; a refresh only at f_pos 0; the count clamped so that f_pos + n <= buf_lim; -EFAULT when a copy of n > 0 bytes fails; otherwise, including every read of n = 0 bytes, n bytes of the cached text from f_pos, f_pos advanced by n and rewound to 0 at the end, so f_pos stays 0 or inside the text |
| LunixChrdev.Open | Lunix_Device_Driver/lunix-chrdev.c:108-150 | -ENODEV for a type at or above N_LUNIX_MSR, -ENOMEM on allocation failure, otherwise a fresh valid state for the decoded sensor and type with buf_lim = 0 and buf_timestamp = 0 |
| LunixChrdev.Ioctl | Lunix_Device_Driver/lunix-chrdev.c:158-161 | always -EINVAL |
| LunixChrdev.Mmap | Lunix_Device_Driver/lunix-chrdev.c:225-227 | always -EINVAL |

## Left out

- Locks and blocking are not modelled: the device spinlocks, the state semaphore, `down_interruptible`, `wait_event_interruptible` and the `virtqueue_get_buf` busy wait. Submission is one step in which the host serves the element. The wait for sensor data is a sequence of snapshots, where running out of snapshots stands for a signal. As a consequence, the unlock on the `-ERESTARTSYS` paths of `lunix_chrdev_read`, which releases a semaphore the reader no longer holds, is not represented.
- The virtio transport is not modelled beyond one queue of elements: descriptors, `virtqueue_kick`, realize/unrealize, QOM and cdev registration, and `crypto_chrdev_init`/`destroy` and `lunix_chrdev_init`/`destroy`.
- The host's `/dev/crypto` and the AES-CBC cipher are not modelled. Their answers for one request are a `HostEnv`, with no encrypt/decrypt round trip.
- CryptoChrdev.Ioctl: requires that the host transform write as many bytes as the request's `len`. The real transform does this for a block-multiple length, and the model does not capture anything else.
- Memory management is not modelled: `kzalloc`, `kmalloc`, `kfree`, the buffers leaked on the early `-EFAULT` returns, and the unchecked `kzalloc` results (the type word, `host_fd`, the ioctl buffers).
- CryptoChrdev.Ioctl: in the CIOCCRYPT copy-back the driver takes `crypt_op.dst` by dereferencing the caller's address directly in kernel mode, with no `copy_from_user` (crypto-chrdev.c:397-398). The model (`CryptoChrdev.Ioctl`, `CryptoChrdev.CopyBack`) reuses the `dst` copied in at the start of the call. It thus assumes that the kernel may read user memory directly (no SMAP fault) and that the caller's struct does not change during the call.
- CryptoChrdev.Open: the claim that the host reads the 8 bytes of the pointer variable `syscall_type` assumes that `sg_init_one` can describe that on-stack variable for DMA. On a kernel with a virtually mapped stack (`CONFIG_VMAP_STACK`) it does not, and what the host then reads is not modelled.
- CryptoChrdev.Open: requires an 8-byte-aligned type-word address, which `kzalloc` guarantees. The model does not cover other addresses.
- `nonseekable_open` is taken to succeed in both drivers.
- The user process's memory is a map of whole buffers plus typed maps of `session_op` and `crypt_op` structs. A partially valid struct or a partial `copy_to_user` is not modelled: a copy of n > 0 bytes succeeds or fails as a whole, and a copy of 0 bytes always succeeds.
- The `debug` output of the guest and the `fprintf`/`DEBUG` output of the host are not modelled (`debug.h` is not part of this model). Neither are the first-byte reads they make of the key, src, iv and dst buffers. With keylen 0 or len 0 those reads touch a zero-size allocation or an empty buffer, so the model's success on those paths (`CryptoChrdev.EmptyKeySessionIsSubmitted`, the len 0 case of `CryptoChrdev.TransformDeliversOutput`) assumes the logging does not fault.
- The MAC fields `session_op.mackey` and `crypt_op.mac` are not copied by the guest or re-linked by the host. The host ioctl therefore receives user-process addresses there. What `/dev/crypto` does with them is not modelled.
- CryptodevHost.Cryptodev.HandleOutput: requires that the head element decode, meaning every position its branch reads exists and has the expected kind. The handler indexes the buffers without checking, so on a malformed element it would read out of bounds. The guest only builds well-formed elements (`Wire.DecodeEncodeIoctl`, `Wire.DecodeEncodeClose`, `Wire.DecodeOpenAsWritten`).
- `data_length` in the CIOCCRYPT path is a C `int` taken from the 32-bit `len`. Lengths of 2^31 and above, which turn negative there, are not modelled.
- LunixChrdev.ChrdevState.Read: requires that f_pos be 0 or inside the cached text. The driver's own rewind keeps it there (the ensures re-establishes it), and the file is non-seekable.
- LunixChrdev.Open: requires a minor the driver registered, below 8 per sensor; `sensor_no` itself is not range-checked in the driver.
- The lookup tables `lookup_voltage`, `lookup_temperature` and `lookup_light` are in a header that is not part of this model. They are a function parameter from type and raw value to thousandths.
- The sensors themselves, the line discipline and the protocol layer feeding `msr_data` are not part of this model.
- `lunix_chrdev_release`, the guest's `crypto_chrdev_read` stub, the encrypted chat programs and the riddle program are not part of this model.

=== FILE: bytes.dfy ===
/**
 * Fixed-width integers as the bytes a shared-memory buffer holds.
 *
 * Both ends of the virtio channel reinterpret a buffer's first bytes as a
 * C `int` or `unsigned int` (the OUT_SG/IN_SG macros of the host device,
 * `sg_init_one(&sg, &x, sizeof(x))` on the guest). The transport does no
 * byte-order conversion, so the model fixes little-endian, the order of
 * the x86 hosts and guests the driver is built for.
 */
module Bytes {

  type Byte = b: int | 0 <= b < 256
  type U16 = x: int | 0 <= x < 0x1_0000
  type U32 = x: int | 0 <= x < 0x1_0000_0000
  type Int32 = x: int | -0x8000_0000 <= x < 0x8000_0000
  type U64 = x: int | 0 <= x < 0x1_0000_0000_0000_0000

  const WORD: nat := 0x1_0000_0000

  function Pow256(n: nat): (p: nat)
    ensures p >= 1
  {
    if n == 0 then 1 else 256 * Pow256(n - 1)
  }

  lemma Pow256Four()
    ensures Pow256(4) == WORD
  {
    assert Pow256(2) == 0x1_0000;
  }

  /** The n low-order bytes of x, least significant first. */
  function LeBytes(x: nat, n: nat): (r: seq<Byte>)
    ensures |r| == n
  {
    if n == 0 then [] else [x % 256] + LeBytes(x / 256, n - 1)
  }

  /** The number a little-endian byte string denotes. */
  function LeValue(s: seq<Byte>): (v: nat)
    ensures v < Pow256(|s|)
  {
    if s == [] then 0 else s[0] + 256 * LeValue(s[1..])
  }

  lemma MulAtLeast(d: nat, k: nat)
    requires k >= 1
    ensures d * k >= d
  {
    assert d * k == d * (k - 1) + d;
  }

  lemma DivModUnique(x: nat, d: nat, q: nat, r: nat)
    requires d > 0 && x == d * q + r && r < d
    ensures x / d == q && x % d == r
  {
    var q', r' := x / d, x % d;
    assert d * q' + r' == d * q + r;
    if q' < q {
      MulAtLeast(d, q - q');
      assert false;
    } else if q' > q {
      MulAtLeast(d, q' - q);
      assert false;
    }
  }

  /** Splitting off the lowest byte: x mod 256P is its low byte plus 256 times (x / 256) mod P. */
  lemma ModSplit(x: nat, p: nat)
    requires p >= 1
    ensures x % (256 * p) == x % 256 + 256 * ((x / 256) % p)
  {
    var q0, r0 := x / 256, x % 256;
    var q1, r1 := q0 / p, q0 % p;
    assert x == 256 * q0 + r0;
    assert q0 == p * q1 + r1;
    assert x == (256 * p) * q1 + (256 * r1 + r0) by {
      assert 256 * q0 == 256 * (p * q1) + 256 * r1;
      assert 256 * (p * q1) == (256 * p) * q1;
    }
    assert 256 * r1 + r0 < 256 * p by {
      assert r1 <= p - 1;
      assert 256 * r1 <= 256 * (p - 1);
    }
    DivModUnique(x, 256 * p, q1, 256 * r1 + r0);
  }

  /** Decoding n encoded bytes gives x back, reduced modulo 256^n. */
  lemma {:induction false} LeValueOfBytes(x: nat, n: nat)
    ensures LeValue(LeBytes(x, n)) == x % Pow256(n)
  {
    if n > 0 {
      var s := LeBytes(x, n);
      assert s[1..] == LeBytes(x / 256, n - 1);
      LeValueOfBytes(x / 256, n - 1);
      ModSplit(x, Pow256(n - 1));
    }
  }

  /** Encoding the value of a byte string gives the same bytes back. */
  lemma {:induction false} LeBytesOfValue(s: seq<Byte>)
    ensures LeBytes(LeValue(s), |s|) == s
  {
    if s != [] {
      var v := LeValue(s);
      DivModUnique(v, 256, LeValue(s[1..]), s[0]);
      LeBytesOfValue(s[1..]);
      assert LeBytes(v, |s|) == [s[0]] + s[1..];
    }
  }

  /** The first k bytes of an n-byte encoding are the k-byte encoding. */
  lemma {:induction false} LeBytesPrefix(x: nat, n: nat, k: nat)
    requires k <= n
    ensures LeBytes(x, n)[..k] == LeBytes(x, k)
  {
    if k > 0 {
      LeBytesPrefix(x / 256, n - 1, k - 1);
      assert LeBytes(x, n)[..k] == [x % 256] + LeBytes(x / 256, n - 1)[..k - 1];
    }
  }

  /** `unsigned int` stored in memory. */
  function U32Bytes(x: U32): (r: seq<Byte>)
    ensures |r| == 4
  {
    LeBytes(x, 4)
  }

  /** `*(unsigned int *) p`: the first four bytes of a buffer read as unsigned. */
  function ReadU32(s: seq<Byte>): (v: U32)
    requires |s| >= 4
  {
    Pow256Four();
    LeValue(s[..4])
  }

  /** `int` stored in memory, two's complement. */
  function I32Bytes(x: Int32): (r: seq<Byte>)
    ensures |r| == 4
  {
    U32Bytes(if x < 0 then x + WORD else x)
  }

  /** `*(int *) p`: the first four bytes of a buffer read as signed. */
  function ReadI32(s: seq<Byte>): (v: Int32)
    requires |s| >= 4
  {
    var u := ReadU32(s);
    if u < 0x8000_0000 then u else u - WORD
  }

  /** A 64-bit pointer value stored in memory. */
  function PtrBytes(a: U64): (r: seq<Byte>)
    ensures |r| == 8
  {
    LeBytes(a, 8)
  }

  lemma ReadU32Stored(x: U32, rest: seq<Byte>)
    ensures ReadU32(U32Bytes(x) + rest) == x
  {
    assert (U32Bytes(x) + rest)[..4] == LeBytes(x, 4);
    LeValueOfBytes(x, 4);
    Pow256Four();
  }

  lemma ReadI32Stored(x: Int32, rest: seq<Byte>)
    ensures ReadI32(I32Bytes(x) + rest) == x
  {
    ReadU32Stored(if x < 0 then x + WORD else x, rest);
  }

  /** Four bytes read as unsigned and stored again are the same four bytes. */
  lemma U32BytesOfRead(s: seq<Byte>)
    requires |s| == 4
    ensures U32Bytes(ReadU32(s)) == s
  {
    assert s[..4] == s;
    LeBytesOfValue(s);
  }

  /** Reading a stored pointer as `unsigned int` yields its low 32 bits. */
  lemma ReadU32OfPtr(a: U64)
    ensures ReadU32(PtrBytes(a)) == a % WORD
  {
    LeBytesPrefix(a, 8, 4);
    LeValueOfBytes(a, 4);
    Pow256Four();
  }
}

=== FILE: errno.dfy ===
/** The Linux error numbers the drivers return, negated, as their result. */
module Errno {
  const EAGAIN: int := 11
  const ENOMEM: int := 12
  const EFAULT: int := 14
  const ENODEV: int := 19
  const EINVAL: int := 22
  /** Kernel-internal: the system call is restarted after a signal. */
  const ERESTARTSYS: int := 512
}

=== FILE: guest.dfy ===
/**
 * The guest side of virtio-cryptodev: the character device driver that
 * turns open, release and the cryptodev ioctls of a user process into one
 * virtqueue element each, waits for the host to serve it, and hands the
 * host's answers back.
 *
 * The element is built the way the driver builds it: an array `sgs` filled
 * through the counters `numOut` (guest-readable buffers, first) and `numIn`
 * (guest-writable ones, after them). Submission (add, kick, and the busy
 * wait for the used buffer under the device lock) is one step in which the
 * device's host handler serves the element.
 *
 * The user process's memory is a `UserSpace` value; copy_from_user and
 * copy_to_user fail on an address the process has not mapped (or, for
 * copy_to_user, not mapped writable).
 */
module CryptoChrdev {
  import opened Bytes
  import opened Wire
  import opened Wrappers
  import opened CryptodevHost
  import opened Errno

  /**
   * The memory of the calling process: plain buffers by base address, and
   * the cryptodev structs the process passes by address. `writable` lists
   * the addresses copy_to_user may write.
   */
  datatype UserSpace = UserSpace(mem: map<nat, seq<Byte>>, sessions: map<nat, SessionOp>,
                                 crypts: map<nat, CryptOp>, writable: set<nat>)

  /**
   * copy_from_user of n bytes: copying nothing succeeds whatever the
   * address; otherwise only a mapped user address with n bytes behind it
   * succeeds, and yields the front of that buffer.
   */
  function CopyFromUser(user: UserSpace, p: Ptr, n: nat): (r: Option<seq<Byte>>)
    ensures r.Some? <==> n == 0 || (p.UserPtr? && p.addr in user.mem && |user.mem[p.addr]| >= n)
    ensures r.Some? ==> |r.value| == n
    ensures r.Some? && n > 0 ==> r.value <= user.mem[p.addr]
  {
    if n == 0 then Some([])
    else if p.UserPtr? && p.addr in user.mem && |user.mem[p.addr]| >= n
    then Some(user.mem[p.addr][..n]) else None
  }

  function CopySessionFromUser(user: UserSpace, addr: nat): (r: Option<SessionOp>)
  {
    if addr in user.sessions then Some(user.sessions[addr]) else None
  }

  function CopyCryptFromUser(user: UserSpace, addr: nat): (r: Option<CryptOp>)
  {
    if addr in user.crypts then Some(user.crypts[addr]) else None
  }

  /**
   * copy_to_user of a byte string: copying nothing succeeds whatever the
   * address and changes nothing; otherwise it overwrites the front of a
   * writable user buffer long enough to hold the bytes.
   */
  function CopyToUser(user: UserSpace, p: Ptr, bytes: seq<Byte>): (r: Option<UserSpace>)
    ensures r.Some? <==> bytes == [] || (p.UserPtr? && p.addr in user.writable && p.addr in user.mem
                                         && |user.mem[p.addr]| >= |bytes|)
    ensures bytes == [] ==> r == Some(user)
    ensures r.Some? && bytes != [] ==>
                        r.value.mem.Keys == user.mem.Keys
                        && |r.value.mem[p.addr]| == |user.mem[p.addr]|
                        && r.value.mem[p.addr][..|bytes|] == bytes
                        && r.value.mem[p.addr][|bytes|..] == user.mem[p.addr][|bytes|..]
                        && (forall a :: a in user.mem && a != p.addr ==> r.value.mem[a] == user.mem[a])
                        && r.value.sessions == user.sessions && r.value.crypts == user.crypts
                        && r.value.writable == user.writable
  {
    if bytes == [] then Some(user)
    else if p.UserPtr? && p.addr in user.writable && p.addr in user.mem && |user.mem[p.addr]| >= |bytes|
    then
      var prev := user.mem[p.addr];
      assert (bytes + prev[|bytes|..])[..|bytes|] == bytes;
      Some(user.(mem := user.mem[p.addr := bytes + prev[|bytes|..]]))
    else None
  }

  /** copy_to_user of a whole session_op: replaces the caller's struct at a writable address. */
  function CopySessionToUser(user: UserSpace, addr: nat, sop: SessionOp): (r: Option<UserSpace>)
    ensures r.Some? <==> addr in user.sessions && addr in user.writable
    ensures r.Some? ==> r.value.sessions.Keys == user.sessions.Keys && r.value.sessions[addr] == sop
                        && (forall a :: a in user.sessions && a != addr ==> r.value.sessions[a] == user.sessions[a])
                        && r.value.mem == user.mem && r.value.crypts == user.crypts
                        && r.value.writable == user.writable
  {
    if addr in user.sessions && addr in user.writable
    then Some(user.(sessions := user.sessions[addr := sop])) else None
  }

  /**
   * What the ioctl gathers from the caller before anything is queued: the
   * command's payload, or None when one of its copy_from_user calls fails.
   * Commands other than the three cryptodev ones gather nothing.
   */
  function IoctlArgsFrom(user: UserSpace, cmd: U32, arg: nat): (r: Option<IoctlArgs>)
    ensures r.Some? ==> ArgsFor(cmd, r.value)
    ensures r.None? <==>
              (cmd == CIOCGSESSION &&
                 (arg !in user.sessions
                  || CopyFromUser(user, user.sessions[arg].key, user.sessions[arg].keylen).None?))
              || (cmd == CIOCFSESSION && CopyFromUser(user, UserPtr(arg), 4).None?)
              || (cmd == CIOCCRYPT &&
                 (arg !in user.crypts
                  || CopyFromUser(user, user.crypts[arg].src, user.crypts[arg].len).None?
                  || CopyFromUser(user, user.crypts[arg].iv, BLOCK_SIZE).None?))
    ensures r.Some? && cmd == CIOCGSESSION ==>
              r.value.sop == user.sessions[arg]
              && r.value.key == CopyFromUser(user, user.sessions[arg].key, user.sessions[arg].keylen).value
    ensures r.Some? && cmd == CIOCFSESSION ==> r.value.ses == ReadU32(user.mem[arg][..4])
    ensures r.Some? && cmd == CIOCCRYPT ==>
              r.value.cop == user.crypts[arg]
              && r.value.src == CopyFromUser(user, user.crypts[arg].src, user.crypts[arg].len).value
              && r.value.iv == CopyFromUser(user, user.crypts[arg].iv, BLOCK_SIZE).value
  {
    if cmd == CIOCGSESSION then
      match CopySessionFromUser(user, arg)
      case None => None
      case Some(sop) =>
        match CopyFromUser(user, sop.key, sop.keylen)
        case None => None
        case Some(key) => Some(NewSession(sop, key))
    else if cmd == CIOCFSESSION then
      match CopyFromUser(user, UserPtr(arg), 4)
      case None => None
      case Some(w) => Some(EndSession(ReadU32(w)))
    else if cmd == CIOCCRYPT then
      match CopyCryptFromUser(user, arg)
      case None => None
      case Some(cop) =>
        match CopyFromUser(user, cop.src, cop.len)
        case None => None
        case Some(src) =>
          match CopyFromUser(user, cop.iv, BLOCK_SIZE)
          case None => None
          case Some(iv) => Some(Transform(cop, src, iv, cop.len))
    else Some(NoArgs)
  }

  /**
   * What the ioctl hands back once the host has answered, given what the
   * host wrote (GuestReadsHostResults): the whole session_op, as the host
   * left it, to the caller's struct; the transform's output to the caller's
   * destination buffer. None when that copy_to_user fails.
   */
  function CopyBack(user: UserSpace, arg: nat, args: IoctlArgs, env: HostEnv): (r: Option<UserSpace>)
  {
    match args
    case NewSession(sop, _) => CopySessionToUser(user, arg, sop.(key := SegPtr(Readable, 3), ses := env.newSes))
    case Transform(cop, _, _, _) => CopyToUser(user, cop.dst, env.cipherText)
    case _ => Some(user)
  }

  /**
   * After a successful CIOCGSESSION the caller's session_op carries the id
   * the host's /dev/crypto assigned; its key field now holds the host's
   * address of the key buffer instead of the caller's key pointer.
   */
  lemma NewSessionReturnsId(user: UserSpace, arg: nat, env: HostEnv)
    requires IoctlArgsFrom(user, CIOCGSESSION, arg).Some?
    requires CopyBack(user, arg, IoctlArgsFrom(user, CIOCGSESSION, arg).value, env).Some?
    ensures var u := CopyBack(user, arg, IoctlArgsFrom(user, CIOCGSESSION, arg).value, env).value;
            arg in u.sessions && u.sessions[arg].ses == env.newSes
            && u.sessions[arg].key == SegPtr(Readable, 3)
            && u.sessions[arg] == user.sessions[arg].(key := SegPtr(Readable, 3), ses := env.newSes)
            && (forall a :: a in user.sessions && a != arg ==> a in u.sessions && u.sessions[a] == user.sessions[a])
            && u.mem == user.mem && u.crypts == user.crypts
  {
  }

  /**
   * A session with an empty key needs no key bytes from the caller: its
   * key pointer is never dereferenced, and the request is submitted.
   */
  lemma EmptyKeySessionIsSubmitted(user: UserSpace, arg: nat)
    requires arg in user.sessions && user.sessions[arg].keylen == 0
    ensures IoctlArgsFrom(user, CIOCGSESSION, arg) == Some(NewSession(user.sessions[arg], []))
  {
  }

  /**
   * After a successful CIOCCRYPT exactly len bytes, the transform's output,
   * have been written at the front of the caller's destination buffer, and
   * no other user memory has changed. With len 0 nothing is written.
   */
  lemma TransformDeliversOutput(user: UserSpace, arg: nat, env: HostEnv)
    requires IoctlArgsFrom(user, CIOCCRYPT, arg).Some?
    requires |env.cipherText| == user.crypts[arg].len
    requires CopyBack(user, arg, IoctlArgsFrom(user, CIOCCRYPT, arg).value, env).Some?
    ensures user.crypts[arg].len == 0 ==>
              CopyBack(user, arg, IoctlArgsFrom(user, CIOCCRYPT, arg).value, env).value == user
    ensures user.crypts[arg].len > 0 ==>
            var u := CopyBack(user, arg, IoctlArgsFrom(user, CIOCCRYPT, arg).value, env).value;
            var dst := user.crypts[arg].dst;
            dst.UserPtr? && dst.addr in u.mem
            && u.mem[dst.addr][..user.crypts[arg].len] == env.cipherText
            && u.mem[dst.addr][user.crypts[arg].len..] == user.mem[dst.addr][user.crypts[arg].len..]
            && (forall a :: a in user.mem && a != dst.addr ==> a in u.mem && u.mem[a] == user.mem[a])
            && u.sessions == user.sessions && u.crypts == user.crypts
  {
  }

  /** A virtio-cryptodev device as the guest driver sees it: its minor number and its virtqueue. */
  class CryptoDevice {
    const minor: nat
    const backend: Cryptodev

    constructor (minor: nat, backend: Cryptodev)
      ensures this.minor == minor && this.backend == backend
    {
      this.minor := minor;
      this.backend := backend;
    }

    /**
     * Adds the element, kicks the host and waits for it to come back: the
     * host handler serves it, and what the guest reads back is the element
     * as the host pushed it. The queue is idle while the device lock is held.
     */
    method Submit(elem: Element, env: HostEnv) returns (done: Element)
      requires backend.avail == [] && Decode(elem).Some? && EnvFits(elem, env)
      modifies backend
      ensures done == Serve(elem, env).elem
      ensures backend.avail == [] && backend.used == old(backend.used) + [done]
      ensures backend.calls == old(backend.calls) + Serve(elem, env).calls
      ensures backend.notified == old(backend.notified) + 1
    {
      backend.Add(elem);
      backend.HandleOutput(env);
      done := backend.used[|backend.used| - 1];
    }
  }

  /** The per-open state: the device and the descriptor the host opened for it. */
  class CryptoOpenFile {
    const crdev: CryptoDevice
    var hostFd: Int32

    constructor (crdev: CryptoDevice)
      ensures this.crdev == crdev && hostFd == -1
    {
      this.crdev := crdev;
      hostFd := -1;
    }
  }

  /** The device owning a minor number: the first one in the list that has it, or null. */
  method GetCryptoDevByMinor(devs: seq<CryptoDevice>, minor: nat) returns (crdev: CryptoDevice?)
    ensures crdev == null <==> forall k :: 0 <= k < |devs| ==> devs[k].minor != minor
    ensures crdev != null ==>
              exists k :: 0 <= k < |devs| && devs[k] == crdev && crdev.minor == minor
                          && forall j :: 0 <= j < k ==> devs[j].minor != minor
  {
    var i := 0;
    while i < |devs|
      invariant 0 <= i <= |devs|
      invariant forall j :: 0 <= j < i ==> devs[j].minor != minor
    {
      if devs[i].minor == minor {
        return devs[i];
      }
      i := i + 1;
    }
    return null;
  }

  /** The backends of a list of devices: what opening one of them may change. */
  function Backends(devs: seq<CryptoDevice>): (bs: set<Cryptodev>)
  {
    set k | 0 <= k < |devs| :: devs[k].backend
  }

  /**
   * The two buffers of an OPEN: the pointer variable holding the type
   * word's address (8 bytes) out, and host_fd, as it stands, in.
   */
  method BuildOpen(typeAddr: U64, hostFd: Int32) returns (elem: Element)
    ensures hostFd == -1 ==> elem == EncodeOpenAsWritten(typeAddr)
    ensures |elem.outSg| == 1 && |elem.inSg| == 1 && elem.inSg[0] == Word(Writable, I32Bytes(hostFd))
  {
    var sgs := new Segment[2](_ => Word(Readable, []));
    var numOut, numIn := 0, 0;
    sgs[numOut] := Word(Readable, PtrBytes(typeAddr));
    numOut := numOut + 1;
    sgs[numOut + numIn] := Word(Writable, I32Bytes(hostFd));
    numIn := numIn + 1;
    elem := Element(sgs[..numOut], sgs[numOut..numOut + numIn]);
  }

  /**
   * crypto_chrdev_open. `typeAddr` is the address kzalloc returned for the
   * syscall-type word (at least 8-byte aligned); `oom` says whether the
   * allocation of the open-file state fails. The readable buffer is the
   * 8-byte pointer variable holding typeAddr, so the host takes the request
   * for OPEN only when typeAddr's low 32 bits are zero; otherwise it leaves
   * host_fd at -1 and the open fails with -ENODEV.
   */
  method Open(devs: seq<CryptoDevice>, minor: nat, typeAddr: U64, oom: bool, env: HostEnv)
    returns (ret: int, crof: CryptoOpenFile?)
    requires typeAddr % 8 == 0
    requires forall k :: 0 <= k < |devs| ==> devs[k].backend.avail == []
    modifies Backends(devs)
    ensures (forall k :: 0 <= k < |devs| ==> devs[k].minor != minor) ==> ret == -ENODEV && crof == null
    ensures (exists k :: 0 <= k < |devs| && devs[k].minor == minor) && oom ==> ret == -ENOMEM && crof == null
    ensures (exists k :: 0 <= k < |devs| && devs[k].minor == minor) && !oom ==> crof != null
    ensures crof == null ==> forall b :: b in Backends(devs) ==> unchanged(b)
    ensures crof != null ==>
              fresh(crof) && crof.crdev.minor == minor
              && (exists k :: 0 <= k < |devs| && devs[k] == crof.crdev
                    && (forall j :: 0 <= j < k ==> devs[j].minor != minor)
                    && devs[k].backend.used == old(devs[k].backend.used) + [Serve(EncodeOpenAsWritten(typeAddr), env).elem]
                    && devs[k].backend.calls ==
                         old(devs[k].backend.calls) + (if typeAddr % WORD == SYSCALL_OPEN then [HostOpen] else []))
              && crof.hostFd == (if typeAddr % WORD == SYSCALL_OPEN then env.openFd else -1)
              && ret == (if crof.hostFd < 0 then -ENODEV else 0)
              && forall b :: b in Backends(devs) && b != crof.crdev.backend ==> unchanged(b)
  {
    var crdev := GetCryptoDevByMinor(devs, minor);
    if crdev == null {
      return -ENODEV, null;
    }
    ghost var k :| 0 <= k < |devs| && devs[k] == crdev && crdev.minor == minor
                   && forall j :: 0 <= j < k ==> devs[j].minor != minor;
    assert crdev.backend in Backends(devs);
    if oom {
      return -ENOMEM, null;
    }
    crof := new CryptoOpenFile(crdev);
    var elem := BuildOpen(typeAddr, crof.hostFd);

    OpenAsWrittenResult(typeAddr, env);
    var done := crdev.Submit(elem, env);
    // The writable buffer is crof->host_fd itself.
    crof.hostFd := ReadI32(done.inSg[0].data.bytes);

    ret := 0;
    if crof.hostFd < 0 {
      ret := -ENODEV;
    }
  }

  /** crypto_chrdev_release: the host closes its descriptor; the release itself always succeeds. */
  method Release(crof: CryptoOpenFile, env: HostEnv) returns (ret: int)
    requires crof.crdev.backend.avail == []
    modifies crof.crdev.backend
    ensures ret == 0
    ensures crof.crdev.backend.avail == []
    ensures crof.crdev.backend.used == old(crof.crdev.backend.used) + [EncodeClose(crof.hostFd)]
    ensures crof.crdev.backend.calls == old(crof.crdev.backend.calls) + [HostClose(crof.hostFd)]
  {
    var sgs := new Segment[2](_ => Word(Readable, []));
    var numOut, numIn := 0, 0;
    sgs[numOut] := Word(Readable, U32Bytes(SYSCALL_CLOSE));
    numOut := numOut + 1;
    sgs[numOut] := Word(Readable, I32Bytes(crof.hostFd));
    numOut := numOut + 1;
    var elem := Element(sgs[..numOut], sgs[numOut..numOut + numIn]);
    assert elem == EncodeClose(crof.hostFd);

    DecodeEncodeClose(crof.hostFd);
    var done := crof.crdev.Submit(elem, env);
    ret := 0;
  }

  /** The element an ioctl queues, when gathering its payload succeeded. */
  function IoctlElement(hostFd: Int32, cmd: U32, user: UserSpace, arg: nat): (r: Option<Element>)
  {
    match IoctlArgsFrom(user, cmd, arg)
    case None => None
    case Some(args) => Some(EncodeIoctl(hostFd, cmd, args))
  }

  /** The segment array of an ioctl with the three buffers common to every command in place. */
  method NewIoctlSgs(hostFd: Int32, cmd: U32) returns (sgs: array<Segment>, numOut: nat)
    ensures fresh(sgs) && sgs.Length == 11 && numOut == 3
    ensures sgs[..numOut] == IoctlHeader(hostFd, cmd)
  {
    sgs := new Segment[11](_ => Word(Readable, []));
    numOut := 0;
    sgs[numOut] := Word(Readable, U32Bytes(SYSCALL_IOCTL));
    numOut := numOut + 1;
    sgs[numOut] := Word(Readable, I32Bytes(hostFd));
    numOut := numOut + 1;
    sgs[numOut] := Word(Readable, U32Bytes(cmd));
    numOut := numOut + 1;
  }

  /** CIOCGSESSION: the caller's session_op, then its key; key out, session_op and return value in. */
  method BuildNewSession(hostFd: Int32, arg: nat, user: UserSpace) returns (r: Option<Element>)
    ensures r == IoctlElement(hostFd, CIOCGSESSION, user, arg)
  {
    var sgs, numOut := NewIoctlSgs(hostFd, CIOCGSESSION);
    var numIn := 0;
    var sess := CopySessionFromUser(user, arg);
    if sess.None? {
      return None;
    }
    var key := CopyFromUser(user, sess.value.key, sess.value.keylen);
    if key.None? {
      return None;
    }
    sgs[numOut] := Word(Readable, key.value);
    numOut := numOut + 1;
    sgs[numOut + numIn] := Segment(Writable, SessionStruct(sess.value));
    numIn := numIn + 1;
    sgs[numOut + numIn] := Word(Writable, I32Bytes(0));
    numIn := numIn + 1;
    assert sgs[..numOut] == IoctlHeader(hostFd, CIOCGSESSION) + [Word(Readable, key.value)];
    assert sgs[numOut..numOut + numIn] == [Segment(Writable, SessionStruct(sess.value)), Word(Writable, I32Bytes(0))];
    r := Some(Element(sgs[..numOut], sgs[numOut..numOut + numIn]));
  }

  /** CIOCFSESSION: the session id, read from the caller; id out, return value in. */
  method BuildEndSession(hostFd: Int32, arg: nat, user: UserSpace) returns (r: Option<Element>)
    ensures r == IoctlElement(hostFd, CIOCFSESSION, user, arg)
  {
    var sgs, numOut := NewIoctlSgs(hostFd, CIOCFSESSION);
    var numIn := 0;
    var id := CopyFromUser(user, UserPtr(arg), 4);
    if id.None? {
      return None;
    }
    sgs[numOut] := Word(Readable, id.value);
    numOut := numOut + 1;
    sgs[numOut + numIn] := Word(Writable, I32Bytes(0));
    numIn := numIn + 1;
    U32BytesOfRead(id.value);
    assert sgs[..numOut] == IoctlHeader(hostFd, CIOCFSESSION) + [Word(Readable, U32Bytes(ReadU32(id.value)))];
    assert sgs[numOut..numOut + numIn] == [Word(Writable, I32Bytes(0))];
    r := Some(Element(sgs[..numOut], sgs[numOut..numOut + numIn]));
  }

  /** CIOCCRYPT: crypt_op, len source bytes and the IV out; len destination bytes and return value in. */
  method BuildTransform(hostFd: Int32, arg: nat, user: UserSpace) returns (r: Option<Element>)
    ensures r == IoctlElement(hostFd, CIOCCRYPT, user, arg)
  {
    var sgs, numOut := NewIoctlSgs(hostFd, CIOCCRYPT);
    var numIn := 0;
    var cop := CopyCryptFromUser(user, arg);
    if cop.None? {
      return None;
    }
    sgs[numOut] := Segment(Readable, CryptStruct(cop.value));
    numOut := numOut + 1;
    var src := CopyFromUser(user, cop.value.src, cop.value.len);
    if src.None? {
      return None;
    }
    sgs[numOut] := Word(Readable, src.value);
    numOut := numOut + 1;
    var iv := CopyFromUser(user, cop.value.iv, BLOCK_SIZE);
    if iv.None? {
      return None;
    }
    sgs[numOut] := Word(Readable, iv.value);
    numOut := numOut + 1;
    sgs[numOut + numIn] := Word(Writable, Zeros(cop.value.len));
    numIn := numIn + 1;
    sgs[numOut + numIn] := Word(Writable, I32Bytes(0));
    numIn := numIn + 1;
    assert sgs[..numOut] == IoctlHeader(hostFd, CIOCCRYPT)
                            + [Segment(Readable, CryptStruct(cop.value)), Word(Readable, src.value), Word(Readable, iv.value)];
    assert sgs[numOut..numOut + numIn] == [Word(Writable, Zeros(cop.value.len)), Word(Writable, I32Bytes(0))];
    r := Some(Element(sgs[..numOut], sgs[numOut..numOut + numIn]));
  }

  /**
   * The first half of crypto_chrdev_ioctl: the element for the command, or
   * None when a copy_from_user fails, in which case nothing is queued. An
   * unknown command gets only the three common buffers. At most 8 of the
   * 11 slots of `sgs` are used.
   */
  method BuildIoctl(hostFd: Int32, cmd: U32, arg: nat, user: UserSpace) returns (r: Option<Element>)
    ensures r == IoctlElement(hostFd, cmd, user, arg)
    ensures r.Some? ==> |r.value.outSg| + |r.value.inSg| <= 8
  {
    if cmd == CIOCGSESSION {
      r := BuildNewSession(hostFd, arg, user);
    } else if cmd == CIOCFSESSION {
      r := BuildEndSession(hostFd, arg, user);
    } else if cmd == CIOCCRYPT {
      r := BuildTransform(hostFd, arg, user);
    } else {
      var sgs, numOut := NewIoctlSgs(hostFd, cmd);
      var numIn := 0;
      assert IoctlArgsFrom(user, cmd, arg) == Some(NoArgs);
      assert sgs[numOut..numOut + numIn] == [];
      r := Some(Element(sgs[..numOut], sgs[numOut..numOut + numIn]));
    }
  }

  /**
   * crypto_chrdev_ioctl. A failing copy_from_user returns -EFAULT before
   * anything is queued. Otherwise the element is submitted, whatever the
   * command, and the results are copied back; the host's return value is
   * not looked at, so the result is 0 unless that copy_to_user fails.
   */
  method Ioctl(crof: CryptoOpenFile, cmd: U32, arg: nat, user: UserSpace, env: HostEnv)
    returns (ret: int, user': UserSpace)
    requires crof.crdev.backend.avail == []
    requires cmd == CIOCCRYPT && arg in user.crypts ==> |env.cipherText| == user.crypts[arg].len
    modifies crof.crdev.backend
    ensures IoctlArgsFrom(user, cmd, arg).None? ==>
              ret == -EFAULT && user' == user && unchanged(crof.crdev.backend)
    ensures IoctlArgsFrom(user, cmd, arg).Some? ==>
              var args := IoctlArgsFrom(user, cmd, arg).value;
              (DecodeEncodeIoctl(crof.hostFd, cmd, args);
               var o := Serve(EncodeIoctl(crof.hostFd, cmd, args), env);
               crof.crdev.backend.avail == []
               && crof.crdev.backend.used == old(crof.crdev.backend.used) + [o.elem]
               && crof.crdev.backend.calls == old(crof.crdev.backend.calls) + o.calls
               && match CopyBack(user, arg, args, env)
                  case None => ret == -EFAULT && user' == user
                  case Some(u) => ret == 0 && user' == u)
  {
    var elem := BuildIoctl(crof.hostFd, cmd, arg, user);
    if elem.None? {
      return -EFAULT, user;
    }
    ghost var args := IoctlArgsFrom(user, cmd, arg).value;
    DecodeEncodeIoctl(crof.hostFd, cmd, args);
    var done := crof.crdev.Submit(elem.value, env);

    ret, user' := 0, user;
    if cmd == CIOCGSESSION {
      GuestReadsHostResults(crof.hostFd, cmd, args, env);
      // The session_op buffer is the one the host wrote its answer into.
      var sess := done.inSg[0].data.sop;
      assert sess == args.sop.(key := SegPtr(Readable, 3), ses := env.newSes);
      var u := CopySessionToUser(user, arg, sess);
      if u.None? {
        return -EFAULT, user;
      }
      user' := u.value;
    } else if cmd == CIOCCRYPT {
      GuestReadsHostResults(crof.hostFd, cmd, args, env);
      var cop := CopyCryptFromUser(user, arg).value;
      var dst := done.inSg[0].data.bytes;
      assert dst[..cop.len] == env.cipherText;
      var u := CopyToUser(user, cop.dst, dst[..cop.len]);
      if u.None? {
        return -EFAULT, user;
      }
      user' := u.value;
    }
  }
}

=== FILE: host.dfy ===
/**
 * The QEMU side of virtio-cryptodev: `vq_handle_output`, which pops one
 * element from the virtqueue, reads the syscall type and its arguments by
 * position, re-points the key, src, iv and dst pointers of the cryptodev
 * structs it finds in the element at the element's own buffers, calls open/close/ioctl on
 * the host's /dev/crypto, writes the results into the guest-writable
 * buffers, pushes the element back and notifies the guest.
 *
 * The host's /dev/crypto is not modelled: what its open and ioctl return
 * for one request, the session id it assigns and the bytes its transform
 * writes are the fields of a `HostEnv`, and every call the handler makes
 * is recorded as a `HostCall`.
 */
module CryptodevHost {
  import opened Bytes
  import opened Wire
  import opened Wrappers

  /** What the host primitives answer while one element is served. */
  datatype HostEnv = HostEnv(openFd: Int32, ioctlRet: Int32, newSes: U32, cipherText: seq<Byte>)

  /** The third argument of a host ioctl. */
  datatype IoctlArg = SessArg(sop: SessionOp) | SesIdArg(ses: Ptr) | CryptArg(cop: CryptOp)

  datatype HostCall = HostOpen | HostClose(fd: Int32) | HostIoctl(fd: Int32, cmd: U32, arg: IoctlArg)

  /** The transform writes as many bytes as the destination buffer holds. */
  predicate EnvFits(e: Element, env: HostEnv)
  {
    match Decode(e)
    case Some(IoctlDev(_, _, Transform(_, _, _, dstLen))) => |env.cipherText| == dstLen
    case _ => true
  }

  /** `IN_SG(k, int) = v`: the first four bytes of a buffer overwritten with an int. */
  function StoreI32(s: Segment, v: Int32): (r: Segment)
    requires s.data.Raw? && |s.data.bytes| >= 4
    ensures r.dir == s.dir && r.data.Raw? && |r.data.bytes| == |s.data.bytes|
    ensures ReadI32(r.data.bytes) == v && r.data.bytes[4..] == s.data.bytes[4..]
  {
    ReadI32Stored(v, s.data.bytes[4..]);
    Segment(s.dir, Raw(I32Bytes(v) + s.data.bytes[4..]))
  }

  datatype Outcome = Outcome(elem: Element, calls: seq<HostCall>)

  /**
   * The positions the handler reads or writes for a decoded request exist
   * in the element and have the kind the handler takes them for.
   */
  lemma DecodeShape(e: Element)
    requires Decode(e).Some?
    ensures |e.outSg| >= 1 && IsWord(e.outSg[0], Readable)
    ensures Decode(e).value.CloseDev? ==> |e.outSg| >= 2 && IsWord(e.outSg[1], Readable)
    ensures Decode(e).value.IoctlDev? ==>
              |e.outSg| >= 3 && IsWord(e.outSg[1], Readable) && IsWord(e.outSg[2], Readable)
    ensures match Decode(e).value
      case OpenDev => |e.inSg| >= 1 && IsWord(e.inSg[0], Writable)
      case CloseDev(_) => |e.outSg| >= 2
      case UnknownSyscall(_) => true
      case IoctlDev(_, cmd, args) =>
        DecodeArgs(e, cmd) == Some(args) &&
        match args
        case NewSession(_, _) => |e.outSg| >= 4 && |e.inSg| >= 2 && IsWord(e.inSg[1], Writable)
        case EndSession(_) => |e.outSg| >= 4 && |e.inSg| >= 1 && IsWord(e.inSg[0], Writable)
        case Transform(_, _, _, _) => |e.outSg| >= 6 && |e.inSg| >= 2 && IsWord(e.inSg[1], Writable)
        case NoArgs => true
  {
  }

  /**
   * What serving one element does: the element as pushed back, and the host
   * primitives called, in order. Specified on the decoded request.
   */
  function Serve(e: Element, env: HostEnv): (o: Outcome)
    requires Decode(e).Some? && EnvFits(e, env)
  {
    DecodeShape(e);
    match Decode(e).value
    case OpenDev =>
      Outcome(e.(inSg := e.inSg[0 := StoreI32(e.inSg[0], env.openFd)]), [HostOpen])
    case CloseDev(fd) =>
      Outcome(e, [HostClose(fd)])
    case UnknownSyscall(_) =>
      Outcome(e, [])
    case IoctlDev(fd, cmd, args) =>
      match args
      case NewSession(sop, _) =>
        var arg := sop.(key := SegPtr(Readable, 3));
        var written := e.inSg[0 := Segment(Writable, SessionStruct(arg.(ses := env.newSes)))];
        Outcome(e.(inSg := written[1 := StoreI32(e.inSg[1], env.ioctlRet)]),
                [HostIoctl(fd, cmd, SessArg(arg))])
      case EndSession(_) =>
        Outcome(e.(inSg := e.inSg[0 := StoreI32(e.inSg[0], env.ioctlRet)]),
                [HostIoctl(fd, cmd, SesIdArg(SegPtr(Readable, 3)))])
      case Transform(cop, _, _, _) =>
        var arg := cop.(src := SegPtr(Readable, 4), iv := SegPtr(Readable, 5), dst := SegPtr(Writable, 0));
        var written := e.inSg[0 := Word(Writable, env.cipherText)];
        Outcome(Element(e.outSg[3 := Segment(Readable, CryptStruct(arg))],
                        written[1 := StoreI32(e.inSg[1], env.ioctlRet)]),
                [HostIoctl(fd, cmd, CryptArg(arg))])
      case NoArgs =>
        Outcome(e, [])
  }

  /** A pointer names one of the element's plain buffers, of direction d, holding at least n bytes. */
  predicate BufferAt(e: Element, p: Ptr, d: Direction, n: nat)
  {
    p.SegPtr? && p.dir == d &&
    var segs := if d == Readable then e.outSg else e.inSg;
    p.index < |segs| && IsBuffer(segs[p.index], d) && |segs[p.index].data.bytes| >= n
  }

  /**
   * Every buffer the ioctl dereferences through the key, src, iv and dst
   * fields of its argument is a buffer of the element, never an address of
   * the guest's user process, of the right direction and long enough for
   * what the ioctl reads or writes there. The MAC fields (session_op.mackey,
   * crypt_op.mac) are not covered: see MacPointersPassedThrough.
   */
  predicate Resolves(arg: IoctlArg, e: Element)
  {
    match arg
    case SessArg(sop) => BufferAt(e, sop.key, Readable, sop.keylen)
    case SesIdArg(p) => BufferAt(e, p, Readable, 4)
    case CryptArg(cop) =>
      BufferAt(e, cop.src, Readable, cop.len) && BufferAt(e, cop.iv, Readable, BLOCK_SIZE)
      && BufferAt(e, cop.dst, Writable, cop.len)
  }

  /**
   * For every request the guest can build, the host makes exactly one ioctl,
   * on the guest's descriptor and command, and the key, src, iv and dst
   * pointers it passes have been re-linked to buffers of the element that
   * exist and are big enough.
   */
  lemma RelinkedPointersResolve(fd: Int32, cmd: U32, args: IoctlArgs, env: HostEnv)
    requires ArgsFor(cmd, args) && !args.NoArgs?
    requires args.Transform? ==> |env.cipherText| == args.dstLen
    ensures var e := EncodeIoctl(fd, cmd, args);
            Decode(e).Some? && EnvFits(e, env) &&
            var o := Serve(e, env);
            |o.calls| == 1 && o.calls[0].HostIoctl? && o.calls[0].fd == fd && o.calls[0].cmd == cmd
            && Resolves(o.calls[0].arg, e)
  {
    DecodeEncodeIoctl(fd, cmd, args);
  }

  /**
   * The MAC pointers are neither copied by the guest nor re-linked by the
   * host: the host ioctl receives session_op.mackey and crypt_op.mac as the
   * addresses the guest's user process wrote there.
   */
  lemma MacPointersPassedThrough(fd: Int32, cmd: U32, args: IoctlArgs, env: HostEnv)
    requires ArgsFor(cmd, args) && (args.NewSession? || args.Transform?)
    requires args.Transform? ==> |env.cipherText| == args.dstLen
    ensures var e := EncodeIoctl(fd, cmd, args);
            Decode(e).Some? && EnvFits(e, env) &&
            var o := Serve(e, env);
            |o.calls| == 1 && o.calls[0].HostIoctl?
            && (args.NewSession? ==> o.calls[0].arg.SessArg? && o.calls[0].arg.sop.mackey == args.sop.mackey
                                     && o.calls[0].arg.sop.mackeylen == args.sop.mackeylen)
            && (args.Transform? ==> o.calls[0].arg.CryptArg? && o.calls[0].arg.cop.mac == args.cop.mac)
  {
    DecodeEncodeIoctl(fd, cmd, args);
  }

  /**
   * The host does not check lengths against the buffers it received: a
   * session_op whose keylen exceeds the key buffer is decoded and passed on
   * with a key pointer that does not cover keylen bytes. The guest never
   * builds such an element (RelinkedPointersResolve).
   */
  lemma HostTrustsKeyLength(env: HostEnv)
    ensures var sop := SessionOp(0, 0, 16, UserPtr(0), 0, UserPtr(0), 0);
            var e := EncodeIoctl(3, CIOCGSESSION, NewSession(sop, []));
            Decode(e).Some? && EnvFits(e, env) &&
            var o := Serve(e, env);
            |o.calls| == 1 && o.calls[0].HostIoctl? && !Resolves(o.calls[0].arg, e)
  {
    var sop := SessionOp(0, 0, 16, UserPtr(0), 0, UserPtr(0), 0);
    HeaderWords(3, CIOCGSESSION, SYSCALL_IOCTL);
    var e := EncodeIoctl(3, CIOCGSESSION, NewSession(sop, []));
    assert Decode(e) == Some(IoctlDev(3, CIOCGSESSION, NewSession(sop, [])));
  }

  /** The buffers serving may write: the result slots of the request's layout. */
  function ResultSlots(r: Request): (slots: set<nat>)
  {
    match r
    case OpenDev => {0}
    case IoctlDev(_, _, NewSession(_, _)) => {0, 1}
    case IoctlDev(_, _, EndSession(_)) => {0}
    case IoctlDev(_, _, Transform(_, _, _, _)) => {0, 1}
    case _ => {}
  }

  /**
   * Serving keeps the element's shape, leaves every writable buffer outside
   * the request's result slots as it was, and changes no readable buffer
   * except the crypt_op it re-links for CIOCCRYPT.
   */
  lemma ServeWritesOnlyResultSlots(e: Element, env: HostEnv)
    requires Decode(e).Some? && EnvFits(e, env)
    ensures var o := Serve(e, env);
            |o.elem.outSg| == |e.outSg| && |o.elem.inSg| == |e.inSg|
            && (forall k :: 0 <= k < |e.inSg| && k !in ResultSlots(Decode(e).value) ==> o.elem.inSg[k] == e.inSg[k])
            && (forall k :: 0 <= k < |e.outSg| && o.elem.outSg[k] != e.outSg[k] ==>
                  k == 3 && Decode(e).value.IoctlDev? && Decode(e).value.args.Transform?)
  {
    DecodeShape(e);
  }

  /**
   * What the guest finds in its writable buffers after the host served a
   * request it built: the descriptor /dev/crypto returned for OPEN; for the
   * ioctls, the ioctl's return value, the session id in the returned
   * session_op, and the transform's output in the destination buffer.
   */
  lemma GuestReadsHostResults(fd: Int32, cmd: U32, args: IoctlArgs, env: HostEnv)
    requires ArgsFor(cmd, args)
    requires args.Transform? ==> |env.cipherText| == args.dstLen
    ensures var e := EncodeIoctl(fd, cmd, args);
            Decode(e).Some? && EnvFits(e, env) &&
            var w := Serve(e, env).elem.inSg;
            |w| == |e.inSg| &&
            match args
            case NewSession(sop, _) =>
              w[0].data == SessionStruct(sop.(key := SegPtr(Readable, 3), ses := env.newSes))
              && IsWord(w[1], Writable) && ReadI32(w[1].data.bytes) == env.ioctlRet
            case EndSession(_) => IsWord(w[0], Writable) && ReadI32(w[0].data.bytes) == env.ioctlRet
            case Transform(_, _, _, _) =>
              w[0].data == Raw(env.cipherText) && IsWord(w[1], Writable) && ReadI32(w[1].data.bytes) == env.ioctlRet
            case NoArgs => w == []
  {
    DecodeEncodeIoctl(fd, cmd, args);
  }

  /** With the type word in the readable buffer, the guest gets /dev/crypto's descriptor back. */
  lemma OpenRoundTrip(env: HostEnv)
    ensures var o := Serve(EncodeOpen(), env);
            o.calls == [HostOpen] && IsWord(o.elem.inSg[0], Writable)
            && ReadI32(o.elem.inSg[0].data.bytes) == env.openFd
  {
  }

  /**
   * With the OPEN element as the guest builds it, the guest gets /dev/crypto's
   * descriptor back only when the low word of the type word's address is the
   * OPEN value; otherwise nothing is opened and host_fd keeps its -1.
   */
  lemma OpenAsWrittenResult(typeAddr: U64, env: HostEnv)
    requires typeAddr % 8 == 0
    ensures var e := EncodeOpenAsWritten(typeAddr);
            Decode(e).Some? && EnvFits(e, env) &&
            var o := Serve(e, env);
            |o.elem.inSg| == 1 && IsWord(o.elem.inSg[0], Writable)
            && o.calls == (if typeAddr % WORD == SYSCALL_OPEN then [HostOpen] else [])
            && ReadI32(o.elem.inSg[0].data.bytes) == (if typeAddr % WORD == SYSCALL_OPEN then env.openFd else -1)
  {
    DecodeOpenAsWritten(typeAddr);
    ReadI32Stored(-1, []);
    assert I32Bytes(-1) + [] == I32Bytes(-1);
  }

  /**
   * The virtio-cryptodev device: its one virtqueue (`avail`, the elements
   * the guest has added and the host not yet popped; `used`, the elements
   * pushed back), the notifications sent to the guest, and the calls made
   * on the host's /dev/crypto.
   */
  class Cryptodev {
    var avail: seq<Element>
    var used: seq<Element>
    var notified: nat
    var calls: seq<HostCall>

    constructor ()
      ensures avail == [] && used == [] && notified == 0 && calls == []
    {
      avail, used, notified, calls := [], [], 0, [];
    }

    /** The guest's virtqueue_add_sgs: the element becomes available to the host. */
    method Add(e: Element)
      modifies this
      ensures avail == old(avail) + [e]
      ensures used == old(used) && notified == old(notified) && calls == old(calls)
    {
      avail := avail + [e];
    }

    /**
     * vq_handle_output. An empty queue is left alone: nothing is pushed and
     * the guest is not notified. Otherwise the head element is served and
     * pushed back, and the guest notified, whatever its syscall type.
     */
    method HandleOutput(env: HostEnv)
      requires avail != [] ==> Decode(avail[0]).Some? && EnvFits(avail[0], env)
      modifies this
      ensures old(avail) == [] ==>
                avail == [] && used == old(used) && notified == old(notified) && calls == old(calls)
      ensures old(avail) != [] ==>
                var o := Serve(old(avail[0]), env);
                avail == old(avail[1..]) && used == old(used) + [o.elem]
                && notified == old(notified) + 1 && calls == old(calls) + o.calls
    {
      if avail == [] {
        return;
      }
      var elem := avail[0];
      avail := avail[1..];
      DecodeShape(elem);
      var outSg, inSg := elem.outSg, elem.inSg;
      var syscall := ReadU32(outSg[0].data.bytes);
      if syscall == SYSCALL_OPEN {
        assert Decode(elem) == Some(OpenDev);
        calls := calls + [HostOpen];
        inSg := inSg[0 := StoreI32(inSg[0], env.openFd)];
        assert Element(outSg, inSg) == Serve(elem, env).elem;
      } else if syscall == SYSCALL_CLOSE {
        assert Decode(elem) == Some(CloseDev(ReadI32(outSg[1].data.bytes)));
        calls := calls + [HostClose(ReadI32(outSg[1].data.bytes))];
        assert Element(outSg, inSg) == Serve(elem, env).elem;
      } else if syscall == SYSCALL_IOCTL {
        var hostFd := ReadI32(outSg[1].data.bytes);
        var cmd := ReadU32(outSg[2].data.bytes);
        assert Decode(elem).value.fd == hostFd && Decode(elem).value.cmd == cmd;
        if cmd == CIOCGSESSION {
          var test := inSg[0].data.sop;
          test := test.(key := SegPtr(Readable, 3));
          inSg := inSg[0 := Segment(Writable, SessionStruct(test))];
          calls := calls + [HostIoctl(hostFd, cmd, SessArg(test))];
          inSg := inSg[0 := Segment(Writable, SessionStruct(test.(ses := env.newSes)))];
          inSg := inSg[1 := StoreI32(inSg[1], env.ioctlRet)];
          assert Element(outSg, inSg) == Serve(elem, env).elem;
        } else if cmd == CIOCFSESSION {
          calls := calls + [HostIoctl(hostFd, cmd, SesIdArg(SegPtr(Readable, 3)))];
          inSg := inSg[0 := StoreI32(inSg[0], env.ioctlRet)];
          assert Element(outSg, inSg) == Serve(elem, env).elem;
        } else if cmd == CIOCCRYPT {
          var cryTest := outSg[3].data.cop;
          cryTest := cryTest.(src := SegPtr(Readable, 4));
          cryTest := cryTest.(iv := SegPtr(Readable, 5));
          cryTest := cryTest.(dst := SegPtr(Writable, 0));
          outSg := outSg[3 := Segment(Readable, CryptStruct(cryTest))];
          calls := calls + [HostIoctl(hostFd, cmd, CryptArg(cryTest))];
          inSg := inSg[0 := Word(Writable, env.cipherText)];
          inSg := inSg[1 := StoreI32(inSg[1], env.ioctlRet)];
          assert Element(outSg, inSg) == Serve(elem, env).elem;
        }
      }
      used := used + [Element(outSg, inSg)];
      notified := notified + 1;
    }
  }
}

=== FILE: lunix_chrdev.dfy ===
/**
 * The Lunix:TNG character devices, /dev/sensor<N>-<type>: one device per
 * sensor and measurement type (battery, temperature, light). An open file
 * caches the latest measurement as text in a 20-byte buffer, refreshes it
 * when the sensor has newer data, and hands it to readers a slice at a
 * time, rewinding to the start once the whole text has been read.
 *
 * The sensors are not modelled: what the driver sees of its measurement
 * slot at each refresh attempt is a `Measurement` argument, the wait for
 * new data is a sequence of such snapshots, and the lookup tables that
 * turn raw values into thousandths are a function argument.
 */
module LunixChrdev {
  import opened Bytes
  import opened Wrappers
  import opened Errno
  import opened LunixFormat

  // lunix.h and lunix-chrdev.h, which define these, are not part of this
  // model: three measurement types per sensor, a 20-byte text buffer.
  const N_LUNIX_MSR: nat := 3
  const LUNIX_CHRDEV_BUFSZ: nat := 20

  /** A sensor's slot for one measurement type: when it was last updated, and its latest raw value. */
  datatype Measurement = Measurement(lastUpdate: U32, value: U16)

  /**
   * The sensor (minor >> 3) and measurement type (minor & 7) a minor
   * number names; -ENODEV when the type is not one the sensors measure.
   */
  function DecodeMinor(minor: nat): (r: Result<(nat, nat)>)
    ensures r.Ok? <==> minor % 8 < N_LUNIX_MSR
    ensures r.Ok? ==> 8 * r.value.0 + r.value.1 == minor && r.value.1 < N_LUNIX_MSR
    ensures r.Err? ==> r.code == -ENODEV
  {
    var sensor, msrType := minor / 8, minor % 8;
    if msrType >= N_LUNIX_MSR then Err(-ENODEV) else Ok((sensor, msrType))
  }

  /** Every sensor and measurement type has a minor number, and it decodes back to them. */
  lemma MinorRoundTrip(sensor: nat, msrType: nat)
    requires msrType < N_LUNIX_MSR
    ensures DecodeMinor(8 * sensor + msrType) == Ok((sensor, msrType))
  {
    DivModUnique(8 * sensor + msrType, 8, sensor, msrType);
  }

  /** The first snapshot that is newer than a timestamp. */
  function FirstFresh(snaps: seq<Measurement>, ts: U32): (r: Option<nat>)
    ensures r.Some? ==> r.value < |snaps| && snaps[r.value].lastUpdate > ts
                        && forall j :: 0 <= j < r.value ==> snaps[j].lastUpdate <= ts
    ensures r.None? ==> forall j :: 0 <= j < |snaps| ==> snaps[j].lastUpdate <= ts
  {
    if snaps == [] then None
    else if snaps[0].lastUpdate > ts then Some(0)
    else match FirstFresh(snaps[1..], ts)
         case None => None
         case Some(k) => Some(k + 1)
  }

  /** strlen: the position of the first NUL. */
  method Strlen(a: array<char>) returns (n: nat)
    requires exists i :: 0 <= i < a.Length && a[i] == '\0'
    ensures n < a.Length && a[n] == '\0'
    ensures forall i :: 0 <= i < n ==> a[i] != '\0'
  {
    n := 0;
    while a[n] != '\0'
      invariant n < a.Length
      invariant forall i :: 0 <= i < n ==> a[i] != '\0'
      invariant exists i :: n <= i < a.Length && a[i] == '\0'
      decreases a.Length - n
    {
      n := n + 1;
    }
  }

  /** The private state of an open sensor device. */
  class ChrdevState {
    const msrType: nat
    const sensor: nat
    const bufData: array<char>
    var bufLim: nat
    var bufTimestamp: U32

    /**
     * buf_lim stays inside the buffer and is the strlen of the cached text:
     * once text has been cached it is NUL-terminated. Before the first
     * refresh buf_lim is 0 and the buffer holds whatever kmalloc left there.
     */
    ghost predicate Valid()
      reads this, bufData
    {
      msrType < N_LUNIX_MSR && bufData.Length == LUNIX_CHRDEV_BUFSZ && bufLim < bufData.Length
      && NoNul(bufData[..bufLim]) && (bufLim > 0 ==> bufData[bufLim] == '\0')
    }

    /** The cached text readers get. */
    ghost function Text(): (t: string)
      reads this, bufData
      requires Valid()
      ensures |t| == bufLim
    {
      bufData[..bufLim]
    }

    /**
     * A freshly opened state: no text cached, nothing seen from the sensor.
     * `junk` is what the uninitialised buffer holds.
     */
    constructor (msrType: nat, sensor: nat, junk: seq<char>)
      requires msrType < N_LUNIX_MSR && |junk| == LUNIX_CHRDEV_BUFSZ
      ensures Valid() && fresh(bufData) && bufData[..] == junk
      ensures this.msrType == msrType && this.sensor == sensor && bufLim == 0 && bufTimestamp == 0
    {
      this.msrType := msrType;
      this.sensor := sensor;
      bufData := new char[LUNIX_CHRDEV_BUFSZ](i => if 0 <= i < |junk| then junk[i] else '\0');
      bufLim := 0;
      bufTimestamp := 0;
    }

    /** lunix_chrdev_state_needs_refresh: 1 exactly when the sensor has data newer than the cached text. */
    function NeedsRefresh(m: Measurement): (r: int)
      reads this
      ensures r == 0 || r == 1
      ensures r == 1 <==> m.lastUpdate > bufTimestamp
    {
      if m.lastUpdate > bufTimestamp then 1 else 0
    }

    /** sprintf of a text without NUL into the buffer, then strlen: the text becomes the cached one. */
    method Render(text: string)
      requires msrType < N_LUNIX_MSR && bufData.Length == LUNIX_CHRDEV_BUFSZ
      requires 0 < |text| < LUNIX_CHRDEV_BUFSZ && NoNul(text)
      modifies this`bufLim, bufData
      ensures Valid() && Text() == text
    {
      var i := 0;
      while i < |text|
        modifies bufData
        invariant 0 <= i <= |text|
        invariant bufData[..i] == text[..i]
      {
        bufData[i] := text[i];
        i := i + 1;
      }
      bufData[|text|] := '\0';
      assert bufData[..|text|] == text;
      bufLim := Strlen(bufData);
      assert bufLim == |text|;
    }

    /**
     * lunix_chrdev_state_update. Without newer data: -EAGAIN and nothing
     * changes. Otherwise the state takes the measurement's timestamp and
     * caches its looked-up value as text, after which it needs no refresh.
     */
    method Update(m: Measurement, lookup: (nat, U16) -> int) returns (ret: int)
      requires Valid()
      modifies this`bufLim, this`bufTimestamp, bufData
      ensures Valid()
      ensures m.lastUpdate <= old(bufTimestamp) ==>
                ret == -EAGAIN && bufLim == old(bufLim) && bufTimestamp == old(bufTimestamp)
                && bufData[..] == old(bufData[..])
      ensures m.lastUpdate > old(bufTimestamp) ==>
                ret == 0 && bufTimestamp == m.lastUpdate && NeedsRefresh(m) == 0
                && Text() == FormatReading(lookup(msrType, m.value))
    {
      if NeedsRefresh(m) == 0 {
        return -EAGAIN;
      }
      var values := m.value;
      bufTimestamp := m.lastUpdate;

      var looked := lookup(msrType, values);
      Render(FormatReading(looked));
      ret := 0;
    }

    /**
     * The refresh at the start of lunix_chrdev_read: state_update is retried
     * as long as it finds nothing newer, sleeping in between. `snaps` is
     * what each attempt sees of the sensor; running out of snapshots is a
     * signal ending the wait. True when the cache was refreshed, from the
     * first snapshot newer than the cached text.
     */
    method RefreshWait(snaps: seq<Measurement>, lookup: (nat, U16) -> int) returns (refreshed: bool)
      requires Valid() && |snaps| >= 1
      modifies this`bufLim, this`bufTimestamp, bufData
      ensures Valid()
      ensures refreshed <==> FirstFresh(snaps, old(bufTimestamp)).Some?
      ensures !refreshed ==>
                bufLim == old(bufLim) && bufTimestamp == old(bufTimestamp) && bufData[..] == old(bufData[..])
      ensures refreshed ==>
                var m := snaps[FirstFresh(snaps, old(bufTimestamp)).value];
                bufTimestamp == m.lastUpdate && Text() == FormatReading(lookup(msrType, m.value))
    {
      var i := 0;
      var r := Update(snaps[i], lookup);
      while r == -EAGAIN
        invariant 0 <= i < |snaps| && Valid()
        invariant forall j :: 0 <= j < i ==> snaps[j].lastUpdate <= old(bufTimestamp)
        invariant r == -EAGAIN ==>
                    snaps[i].lastUpdate <= old(bufTimestamp) && bufLim == old(bufLim)
                    && bufTimestamp == old(bufTimestamp) && bufData[..] == old(bufData[..])
        invariant r != -EAGAIN ==>
                    snaps[i].lastUpdate > old(bufTimestamp) && bufTimestamp == snaps[i].lastUpdate
                    && Text() == FormatReading(lookup(msrType, snaps[i].value))
        decreases |snaps| - i
      {
        // Asleep until the sensor has newer data; a signal wakes it for good.
        if i + 1 == |snaps| {
          return false;
        }
        i := i + 1;
        r := Update(snaps[i], lookup);
      }
      assert FirstFresh(snaps, old(bufTimestamp)) == Some(i);
      refreshed := true;
    }

    /**
     * lunix_chrdev_read. At the start of the text (f_pos == 0) the cache is
     * refreshed first, waiting as long as the sensor has nothing newer; a
     * signal during the wait, or while taking the lock, gives -ERESTARTSYS.
     * Then at most cnt bytes from f_pos on are copied out (`fault` says
     * whether a copy of one byte or more fails), f_pos advances
     * past them and goes back to 0 at the end of the text. f_pos is 0 or
     * inside the text before and after.
     */
    method Read(fPos: nat, cnt: nat, lockInterrupted: bool, snaps: seq<Measurement>,
                lookup: (nat, U16) -> int, fault: bool)
      returns (ret: int, fPos': nat, data: seq<char>)
      requires Valid() && (fPos == 0 || fPos < bufLim)
      requires |snaps| >= 1
      modifies this`bufLim, this`bufTimestamp, bufData
      ensures Valid() && (fPos' == 0 || fPos' < bufLim)
      ensures lockInterrupted || (fPos == 0 && FirstFresh(snaps, old(bufTimestamp)).None?) ==>
                ret == -ERESTARTSYS && fPos' == fPos && data == []
                && bufLim == old(bufLim) && bufTimestamp == old(bufTimestamp) && bufData[..] == old(bufData[..])
      ensures !lockInterrupted && fPos == 0 && FirstFresh(snaps, old(bufTimestamp)).Some? ==>
                var m := snaps[FirstFresh(snaps, old(bufTimestamp)).value];
                bufTimestamp == m.lastUpdate && Text() == FormatReading(lookup(msrType, m.value))
      ensures !lockInterrupted && fPos != 0 ==>
                bufLim == old(bufLim) && bufTimestamp == old(bufTimestamp) && bufData[..] == old(bufData[..])
      ensures !lockInterrupted && (fPos != 0 || FirstFresh(snaps, old(bufTimestamp)).Some?) ==>
                var n := if fPos + cnt > bufLim then bufLim - fPos else cnt;
                fPos + n <= bufLim
                && (fault && n > 0 ==> ret == -EFAULT && fPos' == fPos && data == [])
                && (!fault || n == 0 ==>
                      ret == n && data == Text()[fPos..fPos + n]
                      && fPos' == if fPos + n >= bufLim then 0 else fPos + n)
    {
      if lockInterrupted {
        return -ERESTARTSYS, fPos, [];
      }
      if fPos == 0 {
        var refreshed := RefreshWait(snaps, lookup);
        if !refreshed {
          return -ERESTARTSYS, fPos, [];
        }
      }
      var n := cnt;
      if fPos + n > bufLim {
        n := bufLim - fPos;
      }
      // copy_to_user of 0 bytes cannot fault.
      if fault && n > 0 {
        return -EFAULT, fPos, [];
      }
      data := bufData[fPos..fPos + n];
      fPos' := fPos + n;
      ret := n;
      if fPos' >= bufLim {
        fPos' := 0;
      }
    }
  }

  /**
   * lunix_chrdev_open, for a minor number the driver registered (there are
   * eight per sensor). `oom` says whether allocating the state fails;
   * `junk` is what kmalloc's memory holds, which the driver leaves as is.
   */
  method Open(minor: nat, sensorCnt: nat, oom: bool, junk: seq<char>) returns (ret: int, state: ChrdevState?)
    requires minor < 8 * sensorCnt && |junk| == LUNIX_CHRDEV_BUFSZ
    ensures DecodeMinor(minor).Err? ==> ret == -ENODEV && state == null
    ensures DecodeMinor(minor).Ok? && oom ==> ret == -ENOMEM && state == null
    ensures DecodeMinor(minor).Ok? && !oom ==>
              ret == 0 && state != null && fresh(state) && fresh(state.bufData) && state.Valid()
              && (state.sensor, state.msrType) == DecodeMinor(minor).value && state.sensor < sensorCnt
              && state.bufLim == 0 && state.bufTimestamp == 0
  {
    var sensorNo, msrType := minor / 8, minor % 8;
    if msrType >= N_LUNIX_MSR {
      return -ENODEV, null;
    }
    if oom {
      return -ENOMEM, null;
    }
    state := new ChrdevState(msrType, sensorNo, junk);
    ret := 0;
  }

  /** lunix_chrdev_ioctl: no command is supported. */
  method Ioctl(cmd: U32, arg: nat) returns (ret: int)
    ensures ret == -EINVAL
  {
    ret := -EINVAL;
  }

  /** lunix_chrdev_mmap: mapping the device is not supported. */
  method Mmap() returns (ret: int)
    ensures ret == -EINVAL
  {
    ret := -EINVAL;
  }
}

=== FILE: lunix_format.dfy ===
/**
 * The text a Lunix sensor device hands to readers: a looked-up value in
 * thousandths (of a volt, a degree, ...) printed with `"%d.%d\n"` from its
 * C quotient and the absolute value of its C remainder by 1000.
 *
 * C's `/` and `%` truncate toward zero, unlike Dafny's Euclidean ones, and
 * the quotient (a `long`) is stored in an `int` before printing; both are
 * written out here. `FormatMilli` is the usual fixed-point notation (sign,
 * integer part, three fractional digits), and `ParseMilli` reads such a
 * text back; the lemmas at the end say where the driver's text agrees with
 * that notation and show inputs where it does not.
 */
module LunixFormat {
  import opened Bytes
  import opened Wrappers

  /** C's `a / b` for a positive divisor: truncates toward zero. */
  function CDiv(a: int, b: int): (q: int)
    requires b > 0
  {
    if a >= 0 then a / b else -((-a) / b)
  }

  /** C's `a % b` for a positive divisor: the remainder takes the sign of a. */
  function CRem(a: int, b: int): (r: int)
    requires b > 0
  {
    a - b * CDiv(a, b)
  }

  /** Quotient and remainder split |a| the way Euclidean division splits it, each with a's sign. */
  lemma CDivRem(a: int, b: int)
    requires b > 0
    ensures a >= 0 ==> CDiv(a, b) == a / b && CRem(a, b) == a % b
    ensures a < 0 ==> CDiv(a, b) == -((-a) / b) && CRem(a, b) == -((-a) % b)
    ensures -b < CRem(a, b) < b
  {
  }

  /** Storing a `long` in an `int`: the value modulo 2^32, read as two's complement. */
  function Wrap32(x: int): (r: Int32)
    ensures -0x8000_0000 <= x < 0x8000_0000 ==> r == x
    ensures (x - r) % WORD == 0
  {
    (x + 0x8000_0000) % WORD - 0x8000_0000
  }

  predicate IsDigit(c: char)
  {
    '0' <= c <= '9'
  }

  predicate IsDigits(s: string)
  {
    forall i :: 0 <= i < |s| ==> IsDigit(s[i])
  }

  function DigitChar(d: nat): (c: char)
    requires d < 10
    ensures IsDigit(c) && c as int - '0' as int == d
  {
    (d + '0' as int) as char
  }

  function Pow10(k: nat): (p: nat)
    ensures p >= 1
  {
    if k == 0 then 1 else 10 * Pow10(k - 1)
  }

  /** The number a string of decimal digits denotes. */
  function DecimalValue(s: string): (v: nat)
    requires IsDigits(s)
  {
    if s == [] then 0 else 10 * DecimalValue(s[..|s| - 1]) + (s[|s| - 1] as int - '0' as int)
  }

  /** `%d` of a non-negative number: its decimal digits, without leading zeros. */
  function NatToDecimal(n: nat): (s: string)
    ensures |s| >= 1 && IsDigits(s)
    ensures |s| > 1 ==> s[0] != '0'
  {
    if n < 10 then [DigitChar(n)] else NatToDecimal(n / 10) + [DigitChar(n % 10)]
  }

  /** Printed digits read back as the number printed. */
  lemma {:induction false} NatToDecimalValue(n: nat)
    ensures DecimalValue(NatToDecimal(n)) == n
  {
    if n >= 10 {
      var s := NatToDecimal(n);
      assert s[..|s| - 1] == NatToDecimal(n / 10);
      NatToDecimalValue(n / 10);
    }
  }

  /** A number below 10^k prints in at most k digits. */
  lemma {:induction false} NatToDecimalLength(n: nat, k: nat)
    requires k >= 1 && n < Pow10(k)
    ensures |NatToDecimal(n)| <= k
  {
    if n >= 10 {
      NatToDecimalLength(n / 10, k - 1);
    }
  }

  /** `%d` of an int. */
  function IntToDecimal(x: int): (s: string)
    ensures |s| >= 1 && (x < 0 <==> s[0] == '-')
    ensures IsDigits(if x < 0 then s[1..] else s)
  {
    if x < 0 then "-" + NatToDecimal(-x) else NatToDecimal(x)
  }

  predicate NoNul(s: string)
  {
    forall i :: 0 <= i < |s| ==> s[i] != '\0'
  }

  /**
   * What lunix_chrdev_state_update prints for a looked-up value: the C
   * quotient by 1000 stored in an int, a dot, the absolute C remainder, a
   * newline. At most 16 characters and no NUL, so the text and its
   * terminating NUL fit the 20-byte buffer and strlen gives its length.
   */
  function FormatReading(looked: int): (s: string)
    ensures 4 <= |s| <= 16 && NoNul(s) && s[|s| - 1] == '\n'
  {
    var whole := Wrap32(CDiv(looked, 1000));
    var frac := if CRem(looked, 1000) < 0 then -CRem(looked, 1000) else CRem(looked, 1000);
    assert Pow10(10) == 100_0000_0000 by {
      assert Pow10(5) == 10_0000;
    }
    NatToDecimalLength(if whole < 0 then -(whole as int) else whole as int, 10);
    NatToDecimalLength(frac, 3);
    IntToDecimal(whole) + "." + NatToDecimal(frac) + "\n"
  }

  /** Exactly three digits, with leading zeros: `%03d`. */
  function Pad3(r: nat): (s: string)
    requires r < 1000
    ensures |s| == 3 && IsDigits(s) && DecimalValue(s) == r
  {
    var a, b, c := r / 100, r / 10 % 10, r % 10;
    var s := [DigitChar(a), DigitChar(b), DigitChar(c)];
    assert s[..2][..1] == s[..1] && s[..1][..0] == [];
    assert DecimalValue(s[..1]) == a;
    assert DecimalValue(s[..2]) == 10 * a + b;
    assert r / 10 == 10 * a + b;
    s
  }

  /** A number of three digits prints as its zero-padded form. */
  lemma ThreeDigits(r: nat)
    requires 100 <= r < 1000
    ensures NatToDecimal(r) == Pad3(r)
  {
    assert NatToDecimal(r / 10) == NatToDecimal(r / 100) + [DigitChar(r / 10 % 10)];
    assert r / 10 / 10 == r / 100;
  }

  /** Fixed-point notation of a value in thousandths: sign, integer part, three fractional digits. */
  function FormatMilli(x: int): (s: string)
  {
    var m := if x < 0 then -x else x;
    (if x < 0 then "-" else "") + NatToDecimal(m / 1000) + "." + Pad3(m % 1000) + "\n"
  }

  /** The first position of c in s. */
  function Find(s: string, c: char): (r: Option<nat>)
    ensures r.Some? ==> r.value < |s| && s[r.value] == c && c !in s[..r.value]
    ensures r.None? ==> c !in s
  {
    if s == [] then None
    else if s[0] == c then Some(0)
    else match Find(s[1..], c)
         case None => None
         case Some(k) => Some(k + 1)
  }

  /** The value, in thousandths, of an integer part and up to three fractional digits. */
  function MilliValue(whole: string, frac: string): (v: nat)
    requires IsDigits(whole) && IsDigits(frac) && |frac| <= 3
  {
    1000 * DecimalValue(whole) + DecimalValue(frac) * Pow10(3 - |frac|)
  }

  /** The value, in thousandths, of "digits.digits" with one to three fractional digits. */
  function ParseMagnitude(mag: string): (r: Option<nat>)
  {
    match Find(mag, '.')
    case None => None
    case Some(k) =>
      var whole, frac := mag[..k], mag[k + 1..];
      if whole == [] || !IsDigits(whole) || !(1 <= |frac| <= 3) || !IsDigits(frac) then None
      else Some(MilliValue(whole, frac))
  }

  /** The value, in thousandths, of a reading "[-]digits.digits\n"; None for any other text. */
  function ParseMilli(s: string): (r: Option<int>)
  {
    if |s| == 0 || s[|s| - 1] != '\n' then None
    else
      var body := s[..|s| - 1];
      if |body| > 0 && body[0] == '-' then
        match ParseMagnitude(body[1..])
        case None => None
        case Some(v) => Some(-(v as int))
      else
        match ParseMagnitude(body)
        case None => None
        case Some(v) => Some(v)
  }

  /** The first dot after a run of digits is the one right after them. */
  lemma {:induction false} FindAfterDigits(whole: string, rest: string)
    requires IsDigits(whole)
    ensures Find(whole + "." + rest, '.') == Some(|whole|)
  {
    if whole != [] {
      assert (whole + "." + rest)[1..] == whole[1..] + "." + rest;
      FindAfterDigits(whole[1..], rest);
    }
  }

  lemma ParseMagnitudeOf(whole: string, frac: string)
    requires whole != [] && IsDigits(whole) && 1 <= |frac| <= 3 && IsDigits(frac)
    ensures ParseMagnitude(whole + "." + frac) == Some(MilliValue(whole, frac))
  {
    var mag := whole + "." + frac;
    FindAfterDigits(whole, frac);
    var k := |whole|;
    assert mag[..k] == whole;
    assert mag[k + 1..] == frac;
  }

  /** The fixed-point text reads back as the value it was made from. */
  lemma FormatMilliRoundTrip(x: int)
    ensures ParseMilli(FormatMilli(x)) == Some(x)
  {
    var m := if x < 0 then -x else x;
    var whole, frac := NatToDecimal(m / 1000), Pad3(m % 1000);
    var mag := whole + "." + frac;
    ParseMagnitudeOf(whole, frac);
    NatToDecimalValue(m / 1000);
    assert ParseMagnitude(mag) == Some(m);
    var s := FormatMilli(x);
    var body := s[..|s| - 1];
    if x < 0 {
      assert body == "-" + mag;
      assert body[1..] == mag;
    } else {
      assert body == mag;
      assert body[0] == whole[0];
    }
  }

  /** The driver's text, for a value whose quotient fits an int, in terms of the value's magnitude. */
  lemma FormatReadingParts(looked: int)
    requires -0x8000_0000 * 1000 < looked < 0x8000_0000 * 1000
    ensures var m := if looked < 0 then -looked else looked;
            FormatReading(looked) ==
              IntToDecimal(if looked < 0 then -(m / 1000) else m / 1000) + "." + NatToDecimal(m % 1000) + "\n"
  {
    CDivRem(looked, 1000);
  }

  /**
   * Where the driver's text is the fixed-point notation: the quotient fits
   * an int, the remainder has three digits, and a negative value is at
   * most -1. Then the text reads back as the looked-up value.
   */
  lemma FormatReadingAgrees(looked: int)
    requires -0x8000_0000 * 1000 < looked < 0x8000_0000 * 1000
    requires looked >= 0 || looked <= -1000
    requires CRem(looked, 1000) >= 100 || CRem(looked, 1000) <= -100
    ensures FormatReading(looked) == FormatMilli(looked)
    ensures ParseMilli(FormatReading(looked)) == Some(looked)
  {
    var m := if looked < 0 then -looked else looked;
    CDivRem(looked, 1000);
    FormatReadingParts(looked);
    ThreeDigits(m % 1000);
    if looked < 0 {
      assert IntToDecimal(-(m / 1000)) == "-" + NatToDecimal(m / 1000);
    }
    FormatMilliRoundTrip(looked);
  }

  /** A remainder below 100 loses its leading zeros: 1005 thousandths print as 1.5, read back as 1500. */
  lemma ShortFractionMisread()
    ensures FormatReading(1005) == "1.5\n"
    ensures ParseMilli(FormatReading(1005)) == Some(1500)
  {
    FormatReadingParts(1005);
    assert NatToDecimal(1) == "1" && NatToDecimal(5) == "5";
    ParseMagnitudeOf("1", "5");
    assert DecimalValue("1") == 1 && DecimalValue("5") == 5 by {
      assert "1"[..0] == [] && "5"[..0] == [];
    }
    assert Pow10(2) == 100;
    assert MilliValue("1", "5") == 1000 * 1 + 5 * Pow10(3 - 1);
    var s := "1.5\n";
    assert s[..|s| - 1] == "1" + "." + "5";
  }

  /** A value strictly between -1000 and 0 loses its sign: -500 prints as 500 does. */
  lemma SignDroppedAboveMinusOne()
    ensures FormatReading(-500) == FormatReading(500)
    ensures ParseMilli(FormatReading(-500)) == Some(500)
  {
    FormatReadingParts(-500);
    FormatReadingAgrees(500);
  }
}

=== FILE: wire.dfy ===
/**
 * The virtio-cryptodev wire format: the ordered list of buffers a guest
 * request is flattened into, as `crypto-chrdev.c` builds it and as the
 * host's `vq_handle_output` reads it back, purely by position.
 *
 * A request is one virtqueue element: `outSg`, the guest-readable buffers
 * (the first `num_out` entries of the guest's `sgs[]`), then `inSg`, the
 * guest-writable buffers (the next `num_in` entries). Nothing in the buffers
 * says what they are; both sides agree on the layout per syscall type and
 * ioctl command:
 *
 *   OPEN          out: type                                   in: host_fd
 *   CLOSE         out: type, host_fd                          in: -
 *   IOCTL         out: type, host_fd, cmd, then per command:
 *     CIOCGSESSION  out: key[keylen]                          in: session_op, ret
 *     CIOCFSESSION  out: ses                                  in: ret
 *     CIOCCRYPT     out: crypt_op, src[len], iv[BLOCK_SIZE]   in: dst[len], ret
 *     other         out: -                                    in: -
 *
 * `Decode` is the host's reading of an element; the `Encode*` functions are
 * the guest's layouts; the lemmas at the end show that the host reads back
 * exactly what the guest wrote.
 */
module Wire {
  import opened Bytes
  import opened Wrappers

  // Syscall types. crypto.h (guest) and virtio-cryptodev.h (host), which
  // define them, are not part of this model; both sides are taken to use
  // the values 0, 1 and 2.
  const SYSCALL_OPEN: U32 := 0
  const SYSCALL_CLOSE: U32 := 1
  const SYSCALL_IOCTL: U32 := 2

  // cryptodev ioctl numbers, the _IOWR/_IOW encodings of cryptodev.h on a
  // 64-bit build (cryptodev.h is not part of this model; only the fact that
  // the three differ matters below).
  const CIOCGSESSION: U32 := 0xc030_6366
  const CIOCFSESSION: U32 := 0x4004_6367
  const CIOCCRYPT: U32 := 0xc030_6368

  /** VIRTIO_CRYPTODEV_BLOCK_SIZE: the IV length of the AES-CBC transform. */
  const BLOCK_SIZE: nat := 16

  /** Readable: filled by the guest (out_sg); Writable: filled by the host (in_sg). */
  datatype Direction = Readable | Writable

  /**
   * A pointer field of a cryptodev struct: either an address in the user
   * process that issued the ioctl, or the base address of one of the
   * element's buffers, as the host re-points it.
   */
  datatype Ptr = UserPtr(addr: nat) | SegPtr(dir: Direction, index: nat)

  /** struct session_op of cryptodev.h. */
  datatype SessionOp = SessionOp(cipher: U32, mac: U32, keylen: U32, key: Ptr,
                                 mackeylen: U32, mackey: Ptr, ses: U32)

  /** struct crypt_op of cryptodev.h. */
  datatype CryptOp = CryptOp(ses: U32, op: U16, flags: U16, len: U32,
                             src: Ptr, dst: Ptr, mac: Ptr, iv: Ptr)

  /** What a buffer holds: plain bytes, or a whole cryptodev struct. */
  datatype Payload = Raw(bytes: seq<Byte>) | SessionStruct(sop: SessionOp) | CryptStruct(cop: CryptOp)

  datatype Segment = Segment(dir: Direction, data: Payload)

  datatype Element = Element(outSg: seq<Segment>, inSg: seq<Segment>)

  predicate IsBuffer(s: Segment, d: Direction)
  {
    s.dir == d && s.data.Raw?
  }

  /** A buffer the handler may read or write as a 4-byte int. */
  predicate IsWord(s: Segment, d: Direction)
  {
    IsBuffer(s, d) && |s.data.bytes| >= 4
  }

  /** The payload of an ioctl, as the host sees it after decoding. */
  datatype IoctlArgs =
    | NewSession(sop: SessionOp, key: seq<Byte>)
    | EndSession(ses: U32)
    | Transform(cop: CryptOp, src: seq<Byte>, iv: seq<Byte>, dstLen: nat)
    | NoArgs

  /** A request as the host understands it. */
  datatype Request =
    | OpenDev
    | CloseDev(fd: Int32)
    | IoctlDev(fd: Int32, cmd: U32, args: IoctlArgs)
    | UnknownSyscall(syscall: U32)

  /**
   * The host handler's reading of an element, by position. None when a
   * position the handler reads for the element's type is missing or holds
   * the wrong kind of buffer: the handler does not check, so on such an
   * element it would read out of bounds.
   */
  function Decode(e: Element): (r: Option<Request>)
  {
    if |e.outSg| == 0 || !IsWord(e.outSg[0], Readable) then None
    else
      var syscall := ReadU32(e.outSg[0].data.bytes);
      if syscall == SYSCALL_OPEN then
        if |e.inSg| >= 1 && IsWord(e.inSg[0], Writable) then Some(OpenDev) else None
      else if syscall == SYSCALL_CLOSE then
        if |e.outSg| >= 2 && IsWord(e.outSg[1], Readable)
        then Some(CloseDev(ReadI32(e.outSg[1].data.bytes)))
        else None
      else if syscall == SYSCALL_IOCTL then
        if |e.outSg| >= 3 && IsWord(e.outSg[1], Readable) && IsWord(e.outSg[2], Readable) then
          var cmd := ReadU32(e.outSg[2].data.bytes);
          match DecodeArgs(e, cmd)
          case Some(args) => Some(IoctlDev(ReadI32(e.outSg[1].data.bytes), cmd, args))
          case None => None
        else None
      else Some(UnknownSyscall(syscall))
  }

  /** The command-specific positions the handler reads for an ioctl. */
  function DecodeArgs(e: Element, cmd: U32): (r: Option<IoctlArgs>)
  {
    var rd, wr := e.outSg, e.inSg;
    if cmd == CIOCGSESSION then
      if |rd| >= 4 && IsBuffer(rd[3], Readable) && |wr| >= 2
         && wr[0].dir == Writable && wr[0].data.SessionStruct? && IsWord(wr[1], Writable)
      then Some(NewSession(wr[0].data.sop, rd[3].data.bytes))
      else None
    else if cmd == CIOCFSESSION then
      if |rd| >= 4 && IsWord(rd[3], Readable) && |wr| >= 1 && IsWord(wr[0], Writable)
      then Some(EndSession(ReadU32(rd[3].data.bytes)))
      else None
    else if cmd == CIOCCRYPT then
      if |rd| >= 6 && rd[3].dir == Readable && rd[3].data.CryptStruct?
         && IsBuffer(rd[4], Readable) && IsBuffer(rd[5], Readable)
         && |wr| >= 2 && IsBuffer(wr[0], Writable) && IsWord(wr[1], Writable)
      then Some(Transform(rd[3].data.cop, rd[4].data.bytes, rd[5].data.bytes, |wr[0].data.bytes|))
      else None
    else Some(NoArgs)
  }

  function Word(d: Direction, bytes: seq<Byte>): (s: Segment)
  {
    Segment(d, Raw(bytes))
  }

  function Zeros(n: nat): (z: seq<Byte>)
    ensures |z| == n && forall i :: 0 <= i < n ==> z[i] == 0
  {
    seq(n, _ => 0)
  }

  /**
   * The OPEN element as the guest builds it: the readable buffer is the
   * pointer variable `syscall_type` itself (8 bytes holding the address of
   * the allocated type word), not the word it points to; the writable one is
   * `crof->host_fd`, preset to -1.
   */
  function EncodeOpenAsWritten(typeAddr: U64): (e: Element)
  {
    Element([Word(Readable, PtrBytes(typeAddr))], [Word(Writable, I32Bytes(-1))])
  }

  /** The OPEN element with the type word itself in the readable buffer, as CLOSE and IOCTL do. */
  function EncodeOpen(): (e: Element)
    ensures Decode(e) == Some(OpenDev)
    ensures |e.outSg| == 1 && |e.inSg| == 1 && ReadI32(e.inSg[0].data.bytes) == -1
  {
    ReadU32Stored(SYSCALL_OPEN, []);
    ReadI32Stored(-1, []);
    assert U32Bytes(SYSCALL_OPEN) + [] == U32Bytes(SYSCALL_OPEN);
    assert I32Bytes(-1) + [] == I32Bytes(-1);
    Element([Word(Readable, U32Bytes(SYSCALL_OPEN))], [Word(Writable, I32Bytes(-1))])
  }

  function EncodeClose(fd: Int32): (e: Element)
  {
    Element([Word(Readable, U32Bytes(SYSCALL_CLOSE)), Word(Readable, I32Bytes(fd))], [])
  }

  /** The three readable buffers every ioctl starts with. */
  function IoctlHeader(fd: Int32, cmd: U32): (header: seq<Segment>)
  {
    [Word(Readable, U32Bytes(SYSCALL_IOCTL)), Word(Readable, I32Bytes(fd)), Word(Readable, U32Bytes(cmd))]
  }

  function EncodeIoctl(fd: Int32, cmd: U32, args: IoctlArgs): (e: Element)
  {
    var header := IoctlHeader(fd, cmd);
    match args
    case NewSession(sop, key) =>
      Element(header + [Word(Readable, key)],
              [Segment(Writable, SessionStruct(sop)), Word(Writable, I32Bytes(0))])
    case EndSession(ses) =>
      Element(header + [Word(Readable, U32Bytes(ses))], [Word(Writable, I32Bytes(0))])
    case Transform(cop, src, iv, dstLen) =>
      Element(header + [Segment(Readable, CryptStruct(cop)), Word(Readable, src), Word(Readable, iv)],
              [Word(Writable, Zeros(dstLen)), Word(Writable, I32Bytes(0))])
    case NoArgs =>
      Element(header, [])
  }

  /** The payloads the guest can build for a command: right kind, and lengths taken from the struct. */
  predicate ArgsFor(cmd: U32, args: IoctlArgs)
  {
    match args
    case NewSession(sop, key) => cmd == CIOCGSESSION && |key| == sop.keylen
    case EndSession(_) => cmd == CIOCFSESSION
    case Transform(cop, src, iv, dstLen) =>
      cmd == CIOCCRYPT && |src| == cop.len && |iv| == BLOCK_SIZE && dstLen == cop.len
    case NoArgs => cmd != CIOCGSESSION && cmd != CIOCFSESSION && cmd != CIOCCRYPT
  }

  lemma HeaderWords(fd: Int32, cmd: U32, syscall: U32)
    ensures ReadU32(U32Bytes(syscall)) == syscall
    ensures ReadI32(I32Bytes(fd)) == fd
    ensures ReadU32(U32Bytes(cmd)) == cmd
  {
    ReadU32Stored(syscall, []);
    ReadI32Stored(fd, []);
    ReadU32Stored(cmd, []);
    assert U32Bytes(syscall) + [] == U32Bytes(syscall);
    assert I32Bytes(fd) + [] == I32Bytes(fd);
    assert U32Bytes(cmd) + [] == U32Bytes(cmd);
  }

  /** The host reads back the descriptor, the command and the payload the guest flattened. */
  lemma DecodeEncodeIoctl(fd: Int32, cmd: U32, args: IoctlArgs)
    requires ArgsFor(cmd, args)
    ensures Decode(EncodeIoctl(fd, cmd, args)) == Some(IoctlDev(fd, cmd, args))
  {
    HeaderWords(fd, cmd, SYSCALL_IOCTL);
    if args.EndSession? {
      HeaderWords(fd, args.ses, SYSCALL_IOCTL);
    }
  }

  /** The host reads back the descriptor a CLOSE carries. */
  lemma DecodeEncodeClose(fd: Int32)
    ensures Decode(EncodeClose(fd)) == Some(CloseDev(fd))
  {
    HeaderWords(fd, 0, SYSCALL_CLOSE);
  }

  /**
   * The OPEN element as written reaches the host's OPEN branch only when the
   * low 32 bits of the type word's address happen to be the OPEN value;
   * otherwise the host takes it for an unknown syscall type. For an 8-byte
   * aligned address (kzalloc's minimum alignment) the low word is never
   * CLOSE or IOCTL, so the host never reads a buffer the element lacks.
   */
  lemma DecodeOpenAsWritten(typeAddr: U64)
    requires typeAddr % 8 == 0
    ensures Decode(EncodeOpenAsWritten(typeAddr)) ==
            Some(if typeAddr % WORD == SYSCALL_OPEN then OpenDev else UnknownSyscall(typeAddr % WORD))
  {
    ReadU32OfPtr(typeAddr);
    var low := typeAddr % WORD;
    assert low % 8 == 0 by {
      assert typeAddr == WORD * (typeAddr / WORD) + low;
      assert WORD * (typeAddr / WORD) == 8 * (0x2000_0000 * (typeAddr / WORD));
    }
  }

  /** An aligned address whose low word is not zero: the host never sees OPEN. */
  lemma OpenAddressIsNotOpcode()
    ensures Decode(EncodeOpenAsWritten(8)) == Some(UnknownSyscall(8))
  {
    DecodeOpenAsWritten(8);
  }
}

=== FILE: wrappers.dfy ===
/** Optional values and error-or-value results. */
module Wrappers {
  datatype Option<T> = None | Some(value: T)

  /** A value, or a (negative) kernel error code. */
  datatype Result<T> = Ok(value: T) | Err(code: int)
}
